=== FILE: README.md ===
# Zombie survivor, multiplayer: authority and replication rules in Dafny

This project models the game rules of a small Unity/Photon co-op shooter. Players hold guns and fight zombie waves. They pick up ammo packs, health packs and coins. One peer, the master client, is the authority.

The model describes each peer's copy of an object as an immutable record. Each script method becomes a pure function of that record. Two booleans stand in for Photon's authority checks: `isMaster` for `PhotonNetwork.IsMasterClient` and `isMine` for `photonView.IsMine`. Each remote call a method issues is returned as an ordered list of `Rpc(target, call)` values. Replaying that list on another peer's copy shows what the other peers end up with.

Conventions:

- **Time.** `Time.time` is an integer tick: `TicksPerSecond` is 1000, so 5 s is 5000 ticks.
- **Coroutines and `Invoke`.** `ReloadRoutine`, `DestroyAfter` and `Invoke("Respawn", 5f)` each have two phases. The start records the tick the wait ends. A later step (`Advance`, `Expire`) resumes them.
- **Numbers.** Health is `real`. Ammo, score and wave are unbounded `int`.
- **Randomness.** Every `Random.Range` draw and every `Random.insideUnitSphere` point is a parameter.
- **Snapshots.** `OnPhotonSerializeView` becomes a `Serialize`/`Deserialize` pair over a sequence of boxed stream values. A cast to `int` unboxes a boxed int or a boxed int-backed enum, and so does a cast to such an enum. A read throws when the stream is exhausted or the value has any other type. Each field is assigned as soon as it is read, so `Deserialize` returns the fields assigned before a throwing read together with a `thrown` flag.
- **`Die` overrides.** `LivingEntity.OnDamage` reports the entity as the `onDeath` listeners saw it, which is still alive. `PlayerHealth` and `Zombie` apply their own `Die` extras when that report is present.

Modules, one per script:

| Module | Models |
|---|---|
| `Guns` | `Gun.cs` |
| `Living` | `LivingEntity.cs` |
| `Players` | `PlayerHealth.cs` |
| `Zombies` | `Zombie.cs` |
| `Shooting` | `PlayerShooter.cs` |
| `Game` | `GameManager.cs`, including the score's own snapshot |
| `Spawning` | `ZombieSpawner.cs`, including the snapshot of the wave and the remaining count |
| `Items` | `AmmoPack.cs`, `HealthPack.cs` and `Coin.cs` |
| `ItemSpawning` | `ItemSpawner.cs` |

Three modules are shared:

| Module | Holds |
|---|---|
| `Common` | ticks, `Option`, RPC targets |
| `PhotonStream` | typed stream reads |
| `Lifecycle` | `PhotonNetwork.Destroy` on the room and the guarded `DestroyAfter` coroutine |

On one point the model follows the code rather than the scripts' own comments:

- **Damage on other peers.** The comments in `Assets/Scripts/PlayerHealth.cs:12-20` and `Assets/Scripts/LivingEntity.cs:76-77` say that a peer other than the master only plays the visible effects of `OnDamage`. In the code, the master re-sends `OnDamage` after `ApplyUpdatedHealth`, and the receiving peer runs the whole method. Only the health change is guarded. So on that peer `Die` runs once the received health is spent, and the player's respawn is scheduled there too.

## Model

| member | source | states |
|---|---|---|
| PhotonStream.ReceiveInt | Assets/Scripts/Gun.cs:95-99 | `(int)stream.ReceiveNext()` and `(State)stream.ReceiveNext()` succeed exactly when the next value is a boxed int or a boxed enum. They yield the int or the ordinal, and they consume that value alone. An exhausted stream or a value of any other type throws. |
| PhotonStream.ReceiveWhatWasSent | Assets/Scripts/Gun.cs:85-99 | An int or an enum written with `SendNext` is read back as the same number by either cast, and the values after it stay unread. |
| Guns.OnEnable | Assets/Scripts/Gun.cs:130-141 | Enabling the gun loads a full magazine and the starting reserve, sets it Ready and resets the last fire time to zero. The gun satisfies the owner invariant whenever the magazine capacity is positive, and it can fire at any tick from `timeBetFire` on. |
| Guns.AddAmmoTo | Assets/Scripts/Gun.cs:112-115 | `AddAmmo(n)` raises the reserve and the total by exactly `n`. The magazine, state, last fire time and reload timer are left alone. |
| Guns.Shot | Assets/Scripts/Gun.cs:166-178 | A shot sends the hit test to the master only. It spends exactly one bullet from the magazine and leaves the reserve, the fire time and the reload timer alone. The gun turns Empty exactly when the magazine reaches zero or below. |
| Guns.Fire | Assets/Scripts/Gun.cs:145-157 | The gun shoots exactly when it is Ready and the cooldown has passed. A shot records the current tick and removes exactly one bullet from the total. The gun stays Ready while bullets remain and turns Empty exactly when the magazine runs out. The pending reload tick is kept. Otherwise nothing changes and nothing is sent. |
| Guns.Reload | Assets/Scripts/Gun.cs:254-273 | A reload starts exactly when the gun is not already reloading, the reserve is positive and the magazine is not full. A refusal changes nothing. A start switches to Reloading and schedules the finish `reloadTime` ticks later without moving ammo. |
| Guns.FinishReload | Assets/Scripts/Gun.cs:281-296 | Finishing a reload conserves the total. It fills the magazine to the smaller of the capacity and the bullets held, leaves a non-negative reserve and makes the gun Ready. |
| Guns.Advance | Assets/Scripts/Gun.cs:270-297 | A pending reload finishes once its wait is over: the resume is exactly the second phase of `ReloadRoutine`, which fills the magazine from the reserve, turns the gun Ready and conserves the total. Any other gun is left exactly as it was. |
| Guns.StepKeepsInvariant | Assets/Scripts/Gun.cs:149-177 | One owner step keeps the owner invariant: a fire press, a reload press, a coroutine resume or an AddAmmo. The invariant says the magazine is within `[0, capacity]`, Ready means a loaded bullet and Empty means none. |
| Guns.RunKeepsInvariant | Assets/Scripts/Gun.cs:256-296 | Any sequence of owner steps keeps the owner invariant. |
| Guns.EnabledGunKeepsInvariant | Assets/Scripts/Gun.cs:133-140 | From `OnEnable`, with a positive capacity, no sequence of owner steps ever makes the magazine negative or Ready while empty. |
| Guns.RunAccountsForAmmo | Assets/Scripts/Gun.cs:172 | Over any run, the total changes only by the AddAmmo amounts received minus at most one bullet per step. Reloads never create or lose ammo. |
| Guns.Receive | Assets/Scripts/Gun.cs:111-115 | A received AddAmmo raises that peer's reserve by its amount. No received gun call touches the magazine or the state. |
| Guns.Deliver | Assets/Scripts/Gun.cs:169 | Delivering any list of gun calls to a peer's copy leaves its magazine and state unchanged. |
| Guns.StateFromOrdinal | Assets/Scripts/Gun.cs:48-53 | An ordinal names a gun state exactly when it is 0, 1 or 2. It inverts the declaration order Ready, Empty, Reloading. |
| Guns.Serialize | Assets/Scripts/Gun.cs:82-90 | The owner writes three values: the reserve, then the magazine, both as ints, then the state as an enum whose ordinal names that state. |
| Guns.Deserialize | Assets/Scripts/Gun.cs:93-99 | A replica assigns the first stream value to the reserve, the second to the magazine and the third, as a state ordinal, to the state. The branch completes exactly when all three unbox and the ordinal names a state. It then leaves the rest of the stream unread. A throwing read keeps the fields assigned before it: the reserve once the first value unboxed, the magazine once the second did. The state changes only when the branch completes. The replica's own fire time and reload timer are kept. |
| Guns.SnapshotRoundTrip | Assets/Scripts/Gun.cs:85-99 | A replica that reads what the owner wrote gets the owner's reserve, magazine and state. Whatever follows in the stream is left unread. |
| Living.ApplyUpdatedHealth | Assets/Scripts/LivingEntity.cs:103-107 | The RPC overwrites health and the dead flag with its arguments, with no authority check. |
| Living.OnEnable | Assets/Scripts/LivingEntity.cs:110-116 | Enabling makes the entity alive again at its starting health. |
| Living.Die | Assets/Scripts/LivingEntity.cs:166-176 | The `onDeath` listeners see the entity before it is marked dead. Afterwards it is dead, and `Die` itself sends nothing. |
| Living.OnDamage | Assets/Scripts/LivingEntity.cs:121-140 | On the master, health drops by exactly the damage. The master then sends `ApplyUpdatedHealth(new health, old dead flag)` and then `OnDamage` to the other peers. Another peer changes no health and sends nothing. On every peer the entity is dead afterwards iff it was dead or its health is spent, and `Die` runs iff it was alive and its health is spent. |
| Living.RestoreHealth | Assets/Scripts/LivingEntity.cs:145-164 | A dead entity, or any peer but the master, changes nothing and sends nothing. The master adds the amount, uncapped, then sends `ApplyUpdatedHealth` followed by `RestoreHealth`. It never causes a death. |
| Living.DamageConverges | Assets/Scripts/LivingEntity.cs:123-139 | Whatever state a replica was in, replaying the master's two damage calls in order leaves it with the master's health and dead flag. |
| Living.RestoreConverges | Assets/Scripts/LivingEntity.cs:147-163 | The same for the master's restore calls on a living entity. |
| Living.DeadStaysDead | Assets/Scripts/LivingEntity.cs:136-151 | Once dead, no sequence of damage and restore calls revives the entity or runs `Die` again. |
| Living.DiesAtMostOnce | Assets/Scripts/LivingEntity.cs:136-139 | Over any sequence of damage and restore calls, `Die` runs at most once, and not at all on an entity already dead. |
| Living.NonMasterKeepsHealth | Assets/Scripts/LivingEntity.cs:123-158 | On a peer that is not the master, no sequence of local damage and restore calls changes health. |
| Shooting.SetEnabled | Assets/Scripts/PlayerShooter.cs:40-50 | Switching the shooter on or off switches the gun's object to match, so the gun's active flag keeps mirroring the shooter. Activating an inactive gun runs the gun's `OnEnable`. Setting the current value changes nothing. |
| Shooting.Update | Assets/Scripts/PlayerShooter.cs:52-88 | A disabled shooter, or one on another player's avatar, does nothing. Fire takes priority over reload and never triggers the reload animation. A reload press triggers the animation exactly when the gun's reload started. Every owned frame shows the resulting magazine and reserve. |
| Shooting.UpdateKeepsInvariant | Assets/Scripts/PlayerShooter.cs:52-72 | Whatever the input, the owner's Update keeps its gun's owner invariant, given a positive magazine capacity. |
| Shooting.AdvanceGun | Assets/Scripts/PlayerShooter.cs:46-50 | An active gun resumes its pending reload exactly as `Guns.Advance` does, and the rest of the shooter is kept. An inactive gun's coroutines do not run, so the shooter is unchanged. |
| Shooting.ReenableRefillsGun | Assets/Scripts/PlayerShooter.cs:40-50 | Switching a mirrored shooter off and on again hands back a freshly enabled gun. |
| Players.OnEnable | Assets/Scripts/PlayerHealth.cs:111-126 | After the base reset, the slider is shown with maximum `startingHealth` and value `health`. Movement and shooter are on. |
| Players.DieExtras | Assets/Scripts/PlayerHealth.cs:156-176 | After the base `Die`, the slider is hidden, movement and shooter are off, and a respawn is due 5000 ticks later. |
| Players.OnDamage | Assets/Scripts/PlayerHealth.cs:140-154 | The hit sound plays exactly when the player was alive. The base damage rules decide health and calls. The slider shows the new health. A death hides the slider, switches movement and shooter off and schedules the respawn. Without a death nothing else changes. |
| Players.RestoreHealth | Assets/Scripts/PlayerHealth.cs:129-136 | The base restore rules decide health and calls, and the slider shows the new health. Restoring never kills the player, and it does not touch the shooter or a pending respawn. |
| Players.OnTriggerEnter | Assets/Scripts/PlayerHealth.cs:178-202 | A living player touching an item uses it exactly when this peer is the master. The pickup sound plays on every peer for a living player. A dead player does neither. |
| Players.Respawn | Assets/Scripts/PlayerHealth.cs:205-223 | Only the owner moves the avatar, to ground height. Every peer ends with the player alive at starting health, slider full, movement and shooter on, and no respawn pending. A shooter whose gun mirrored it gets a freshly enabled gun. |
| Players.Advance | Assets/Scripts/PlayerHealth.cs:175 | Once its tick has come, the pending `Invoke` runs exactly `Respawn`: alive at full health, slider and controls on, and the gun refilled. Until then nothing changes. |
| Players.KilledPlayerRespawnsRefilled | Assets/Scripts/PlayerHealth.cs:156-223 | A living player killed on the master dies. Respawned five seconds or more later, it is back at starting health with a freshly enabled gun. |
| Zombies.Setup | Assets/Scripts/Zombie.cs:69-82 | Setup sets starting and current health to the new health and sets the attack damage. The target, cooldown, colliders and navigation are kept. |
| Zombies.SetupSetsLethalDamage | Assets/Scripts/Zombie.cs:69-82 | After Setup, a hit on the master kills a living zombie exactly when its damage reaches the new health. |
| Zombies.FirstAlive | Assets/Scripts/Zombie.cs:151-165 | Gives the first collider position, in order, whose entity exists and is alive. None means that no collider qualifies. |
| Zombies.UpdatePath | Assets/Scripts/Zombie.cs:129-171 | Only the master with a living zombie acts; otherwise the agent is left untouched. A live target is chased. Without one the agent is stopped, and the zombie's new target is the first collider, in order, that belongs to a living entity. If none does, it keeps its old target. Nothing else about the zombie changes. |
| Zombies.RetargetThenChase | Assets/Scripts/Zombie.cs:134-165 | A zombie without a live target that overlaps a living entity acquires it as its target. On every later pass it chases that target, whatever it overlaps then. |
| Zombies.AnimatorHasTarget | Assets/Scripts/Zombie.cs:115-126 | Only the master writes HasTarget. It writes true exactly when the target exists and is alive. |
| Zombies.DieExtras | Assets/Scripts/Zombie.cs:195-216 | After the base `Die`, the zombie's colliders and navigation are off. Its life and target are untouched. |
| Zombies.OnDamage | Assets/Scripts/Zombie.cs:175-192 | The hit effect plays exactly when the zombie was alive. The base damage rules then always apply. Colliders and navigation go off exactly when `Die` ran. |
| Zombies.OnTriggerStay | Assets/Scripts/Zombie.cs:225-255 | An attack happens exactly when all of these hold: this peer is the master, the zombie is alive, the cooldown has passed, and it touches exactly its target. An attack restarts the cooldown at the current tick. Without one nothing changes. |
| Zombies.AttacksRespectCooldown | Assets/Scripts/Zombie.cs:235-245 | Two successive attacks on the master are at least `timeBetAttack` ticks apart. |
| Zombies.FindTarget | Assets/Scripts/Zombie.cs:151-165 | The loop with `break` picks the same target as the first-alive search, and keeps the old target when nothing qualifies. |
| Lifecycle.NetworkDestroy | Assets/Scripts/ZombieSpawner.cs:268 | Destroying removes exactly the target from the room, and only when it is still there. |
| Lifecycle.Schedule | Assets/Scripts/ZombieSpawner.cs:253 | Starting `DestroyAfter` records its target and a wake-up exactly `delay` ticks later. |
| Lifecycle.Expire | Assets/Scripts/ZombieSpawner.cs:259-270 | Before its tick the coroutine waits. Afterwards it removes the target if it still exists and otherwise does nothing. It never fails on a target already gone. |
| Lifecycle.ExpireIdempotent | Assets/Scripts/ZombieSpawner.cs:264-269 | Expiring the same timer again later changes nothing more. |
| Lifecycle.ExpireAfterDestroy | Assets/Scripts/ItemSpawner.cs:93-97 | A timer whose target another path already destroyed leaves the room as it is. |
| Game.Initial | Assets/Scripts/GameManager.cs:69-70 | The score starts at 0 with the game running. |
| Game.AddScore | Assets/Scripts/GameManager.cs:149-159 | While the game runs, the score and its display rise by exactly the amount. After game over nothing changes. The game-over flag and UI are never touched. |
| Game.EndGame | Assets/Scripts/GameManager.cs:162-168 | The game is over and the game-over UI is shown. The score and its display are kept. |
| Game.EndGameIdempotent | Assets/Scripts/GameManager.cs:162-168 | Ending an ended game changes nothing. |
| Game.GameoverIsFinal | Assets/Scripts/GameManager.cs:70 | No sequence of scores, ends and snapshots sets the game back to running. |
| Game.ScoreFrozenAfterEnd | Assets/Scripts/GameManager.cs:152-158 | Once the game is over, no sequence of `AddScore` calls changes the manager. |
| Game.EndFreezesScore | Assets/Scripts/GameManager.cs:149-168 | After `EndGame`, the score stays what it was when the game ended, whatever is added. |
| Game.Receive | Assets/Scripts/GameManager.cs:86-88 | A received score overwrites the score and its display even after game over. The game-over state is untouched. |
| Game.Serialize | Assets/Scripts/GameManager.cs:76-80 | The owner writes the score alone, as an int. |
| Game.Deserialize | Assets/Scripts/GameManager.cs:81-89 | The read completes exactly when the first stream value unboxes to an int. That int then becomes the replica's score and is displayed. When the read throws, neither the score nor the display changes. |
| Game.SnapshotRoundTrip | Assets/Scripts/GameManager.cs:76-88 | A replica takes the owner's score and displays it, whatever it showed before and whether or not its game is over. |
| Spawning.SpawnCount | Assets/Scripts/ZombieSpawner.cs:193 | The count is the integer nearest to 1.5 times the wave. On a tie it is the even neighbour. |
| Spawning.SpawnCountFirstWaves | Assets/Scripts/ZombieSpawner.cs:192-193 | Waves 1 to 8 bring 2, 3, 4, 6, 8, 9, 10 and 12 zombies. |
| Spawning.CreateZombie | Assets/Scripts/ZombieSpawner.cs:204-234 | Creating a zombie appends one fresh id to the list. It sends that zombie Setup with the chosen data to every peer, and it keeps the list free of duplicates. |
| Spawning.CreateZombies | Assets/Scripts/ZombieSpawner.cs:196-200 | Creating `n` zombies appends `n` consecutive fresh ids in order and sends one Setup to All for each. The wave and the received count are untouched. |
| Spawning.CreateZombiesKeepTracked | Assets/Scripts/ZombieSpawner.cs:234 | After any batch of creations the list stays free of duplicates, and every id in it is below the next id to be given out. |
| Spawning.SpawnWave | Assets/Scripts/ZombieSpawner.cs:187-201 | The wave rises by exactly one, then the wave's count of fresh zombies is appended. The spawn fails exactly when zombies are due but there is no zombie data or no spawn point. A failed spawn adds no zombie. |
| Spawning.Shown | Assets/Scripts/ZombieSpawner.cs:172-184 | The wave text shows the wave with the list's length on the master and the received count on any other peer. |
| Spawning.Update | Assets/Scripts/ZombieSpawner.cs:148-169 | The wave advances only on the master, during play, with no zombie left, and then always. That branch is exactly `SpawnWave`: the same zombies and Setup calls, with the UI shown exactly when the spawn did not fail. The master returns before the UI during game over. Other peers only refresh the UI. |
| Spawning.Remove | Assets/Scripts/ZombieSpawner.cs:246 | `List.Remove` takes out one occurrence of a listed id, keeping the others. An unlisted id leaves the list as it is. |
| Spawning.OnZombieDeath | Assets/Scripts/ZombieSpawner.cs:244-255 | A zombie's death removes its first occurrence from the list, exactly as `List.Remove` does, and changes nothing else on the spawner. It starts the zombie's destroy 10000 ticks later and scores 100 through `AddScore`. A duplicate-free list no longer contains the dead zombie afterwards. |
| Spawning.RemoveDistinct | Assets/Scripts/ZombieSpawner.cs:246 | Removing from a duplicate-free list leaves it duplicate-free and without the removed id. |
| Spawning.Serialize | Assets/Scripts/ZombieSpawner.cs:125-131 | The master writes two ints: the number of zombies in its list, then the wave. |
| Spawning.Deserialize | Assets/Scripts/ZombieSpawner.cs:132-139 | A replica assigns the first stream value to its count and the second to its wave. The branch completes exactly when both unbox. A throw at the wave keeps the count already read. The replica's own list is never touched. |
| Spawning.SnapshotRoundTrip | Assets/Scripts/ZombieSpawner.cs:125-139 | A replica reads the master's list length into its count and the master's wave into its wave, in that order. |
| Spawning.ReplicaShowsMasterCount | Assets/Scripts/ZombieSpawner.cs:172-183 | After the snapshot, a replica's wave text shows what the master's shows. |
| Items.Defaults | Assets/Scripts/AmmoPack.cs:24 | The packs grant 30 ammo, 50 health and 200 points. |
| Items.UseAmmoPack | Assets/Scripts/AmmoPack.cs:26-39 | A target with a shooter gets exactly one `AddAmmo(ammo)` sent to All. A target without one gets nothing. The pack destroys itself everywhere. Health, score and the local gun are untouched. |
| Items.UseHealthPack | Assets/Scripts/HealthPack.cs:14-28 | A target with a LivingEntity runs its restore. A dead target is unchanged, and a living one on the master gains exactly the pack's health. The only calls are the restore's own. The pack destroys itself. |
| Items.UseCoin | Assets/Scripts/Coin.cs:13-19 | During play the score rises by exactly the coin's value. After game over nothing changes. No RPC is sent, and the coin destroys itself. |
| Items.Use | Assets/Scripts/PlayerHealth.cs:195 | Only the coin touches the score, only the health pack touches the player, and only the ammo pack sends gun calls. The item is destroyed exactly when it is still in the room. |
| Items.AmmoReachesEveryPeer | Assets/Scripts/AmmoPack.cs:31-35 | On every peer, whatever copy of the gun it holds, the pack's RPC raises the reserve by exactly the pack's ammo and changes nothing else. |
| Items.HealthReachesEveryPeer | Assets/Scripts/HealthPack.cs:20-24 | A health pack used on the master brings every replica of a living player to the master's health and dead flag. |
| ItemSpawning.Initial | Assets/Scripts/ItemSpawner.cs:34-35 | The spawn interval bounds are 2000 and 7000 ticks. |
| ItemSpawning.RandomRange | Assets/Scripts/ItemSpawner.cs:43 | A float `Random.Range` draw lies between its two bounds, both included, in either order. |
| ItemSpawning.RandomIndex | Assets/Scripts/ItemSpawner.cs:76 | An int `Random.Range(0, n)` draw is a valid index when `n > 0`, and 0 otherwise. |
| ItemSpawning.Start | Assets/Scripts/ItemSpawner.cs:40-45 | The first interval lies within the bounds, counted from tick 0. |
| ItemSpawning.Update | Assets/Scripts/ItemSpawner.cs:48-85 | Any peer but the master, or a frame before the interval has passed, changes nothing. Otherwise the spawner notes the tick and draws a new in-bounds interval. It spawns exactly one item, with a 5000-tick destroy, exactly when an item is configured. |
| ItemSpawning.RunKeepsWindow | Assets/Scripts/ItemSpawner.cs:56-63 | Through any run of master frames, the interval stays within its bounds. |
| ItemSpawning.NothingToSpawn | Assets/Scripts/ItemSpawner.cs:76 | With no item configured, no frame ever spawns. |
| ItemSpawning.SpawnsAreSpaced | Assets/Scripts/ItemSpawner.cs:56-64 | In any run, the first spawn waits for the interval current before the run. Any two successive spawns are at least the lower bound apart. |

## Left out

- Photon transport is not modelled. That covers message delivery, late joiners, master election and ownership transfer. Calls are delivered in order, as the lists the functions return. `PhotonNetwork.Instantiate` is modelled only as handing out consecutive fresh view ids.
- `ShotProcessOnServer` and `ShotEffect` are left out. Their raycast and line-renderer effect are physics and presentation. The modelled gun only records the call to the master.
- Physics and navigation are left out: `OverlapSphere` becomes a given list of colliders, and `SetDestination` a `Chase` command naming the target. `GetRandomPointOnNavMesh` and the half-unit lift are not modelled.
- Audio, particles, animator triggers, IK and UI text calls appear only as flags or shown values.
- Registering `Color` with Photon under code 128 is left out. The serializer is not part of this model.
- Speed and skin colour in `Setup` are left out because they are presentation.
- `PlayerMovement`, `PlayerInput` and `CameraSetup` are left out. They hold no rule these modules depend on.
- The `GameManager` singleton lookup, the player spawn in `Start`, leaving the room and loading a scene are engine plumbing and are left out.
- Float rounding is not modelled. Health is exact `real`, and ticks are exact integers.
- Unity's `RoundToInt` on `wave * 1.5f` is taken as exact rounding, ties to even. Single precision is ignored.
- Int overflow of ammo, score and wave is not modelled.
- Guns.EnabledGunKeepsInvariant: AddAmmo steps in an owner run are non-negative. A negative `AddAmmo` could leave the reserve negative, which the source never sends.
- Guns.Deserialize: an ordinal outside 0-2 is treated as a throwing state read, whereas a C# enum cast would accept it and store an unnamed `State`. The model's gun state has only the three named states. The reserve and magazine read before it are still assigned.
- Spawning.OnZombieDeath: the listeners exist only on the master, which the function takes for granted. It has no authority parameter.
- Items.UseAmmoPack: a shooter whose `gun` field is unassigned is treated like a target with no shooter.

=== FILE: common.dfy ===
/** Vocabulary shared by every script model: ticks, optional values, view
    identifiers and the RPC targets the scripts address. */
module Common {

  /** `Time.time`, counted in whole milliseconds. */
  type Tick = int

  /** Milliseconds per second, for the scripts' delays written in seconds. */
  const TicksPerSecond: int := 1000

  /** A networked object, named by the id Photon gives its PhotonView. */
  type ViewId = nat

  datatype Option<T> = None | Some(value: T)

  /** The `RpcTarget` selectors the scripts use. */
  datatype RpcTarget = All | Others | MasterClient

  /** A remote call as it leaves the sender: who runs it and what it is. */
  datatype Rpc<C> = Rpc(target: RpcTarget, call: C)

  /** Whether a peer runs an RPC with this target: `isSender` says whether the
      peer sent it, `isMaster` whether the peer is the master client. */
  predicate RunsOn(target: RpcTarget, isSender: bool, isMaster: bool)
  {
    match target
    case All => true
    case Others => !isSender
    case MasterClient => isMaster
  }

  function Min(a: int, b: int): int
  {
    if a <= b then a else b
  }
}

=== FILE: game.dfy ===
/** GameManager: the score and the game-over flag, owned by the master and
    streamed to the other peers. */
module Game {
  import opened Common
  import opened PhotonStream

  /** One peer's GameManager. `scoreText` is what the score UI last showed. */
  datatype GameManager = GameManager(score: int, isGameover: bool, scoreText: int, gameoverUi: bool)

  /** The manager as the scene creates it: no score, game running. */
  function Initial(): (g: GameManager)
    ensures g.score == 0 && !g.isGameover
  {
    GameManager(0, false, 0, false)
  }

  /** AddScore: only while the game runs; the UI shows the new score. */
  function AddScore(g: GameManager, newScore: int): (r: GameManager)
    ensures !g.isGameover ==> r.score == g.score + newScore && r.scoreText == r.score
    ensures g.isGameover ==> r == g
    ensures r.isGameover == g.isGameover && r.gameoverUi == g.gameoverUi
  {
    if !g.isGameover then g.(score := g.score + newScore, scoreText := g.score + newScore) else g
  }

  /** EndGame: the game is over and the game-over UI shows. */
  function EndGame(g: GameManager): (r: GameManager)
    ensures r.isGameover && r.gameoverUi
    ensures r.score == g.score && r.scoreText == g.scoreText
  {
    g.(isGameover := true, gameoverUi := true)
  }

  lemma EndGameIdempotent(g: GameManager)
    ensures EndGame(EndGame(g)) == EndGame(g)
  {
  }

  /** Everything that can happen to a manager. */
  datatype GameEvent = Score(n: int) | End | Snapshot(score: int)

  function Handle(g: GameManager, e: GameEvent): GameManager
  {
    match e
    case Score(n) => AddScore(g, n)
    case End => EndGame(g)
    case Snapshot(score) => Receive(g, score)
  }

  function Play(g: GameManager, events: seq<GameEvent>): GameManager
    decreases |events|
  {
    if |events| == 0 then g else Play(Handle(g, events[0]), events[1..])
  }

  /** Nothing sets the game back to running. */
  lemma {:induction false} GameoverIsFinal(g: GameManager, events: seq<GameEvent>)
    requires g.isGameover
    ensures Play(g, events).isGameover
    decreases |events|
  {
    if |events| > 0 {
      GameoverIsFinal(Handle(g, events[0]), events[1..]);
    }
  }

  /** AddScore called with each amount in turn. */
  function AddScores(g: GameManager, amounts: seq<int>): GameManager
    decreases |amounts|
  {
    if |amounts| == 0 then g else AddScores(AddScore(g, amounts[0]), amounts[1..])
  }

  /** After EndGame no sequence of AddScore calls moves the score. */
  lemma {:induction false} ScoreFrozenAfterEnd(g: GameManager, amounts: seq<int>)
    requires g.isGameover
    ensures AddScores(g, amounts) == g
    decreases |amounts|
  {
    if |amounts| > 0 {
      ScoreFrozenAfterEnd(AddScore(g, amounts[0]), amounts[1..]);
    }
  }

  lemma EndFreezesScore(g: GameManager, amounts: seq<int>)
    ensures AddScores(EndGame(g), amounts).score == g.score
  {
    ScoreFrozenAfterEnd(EndGame(g), amounts);
  }

  /** The owner's side of OnPhotonSerializeView: the score alone. */
  function Serialize(g: GameManager): (r: seq<Value>)
    ensures |r| == 1 && Unboxes(r[0]) && AsInt(r[0]) == g.score
  {
    [IntValue(g.score)]
  }

  /** A received score: overwrite it, even after game over, and refresh the
      display; no scoring rule runs. */
  function Receive(g: GameManager, score: int): (r: GameManager)
    ensures r.score == score && r.scoreText == score
    ensures r.isGameover == g.isGameover && r.gameoverUi == g.gameoverUi
  {
    g.(score := score, scoreText := score)
  }

  /** A replica's side: read one int into the score and display it. When
      the read throws, neither the score nor the display changes. */
  function Deserialize(replica: GameManager, s: seq<Value>): (r: Deserialized<GameManager>)
    ensures !r.thrown <==> |s| > 0 && Unboxes(s[0])
    ensures !r.thrown ==> r.got == Receive(replica, AsInt(s[0])) && r.rest == s[1..]
    ensures r.thrown ==> r.got == replica
  {
    match ReceiveInt(s)
    case None => Deserialized(replica, s, true)
    case Some(Received(score, rest)) => Deserialized(Receive(replica, score), rest, false)
  }

  /** A replica takes the owner's score, whatever it showed and whether or
      not its game is over, and displays it. */
  lemma SnapshotRoundTrip(owner: GameManager, replica: GameManager, rest: seq<Value>)
    ensures Deserialize(replica, Serialize(owner) + rest)
         == Deserialized(replica.(score := owner.score, scoreText := owner.score), rest, false)
  {
    assert (Serialize(owner) + rest)[1..] == rest;
  }
}

=== FILE: guns.dfy ===
/** The gun: a three-state machine (Ready, Empty, Reloading) with a fire
    cooldown, a two-phase reload and integer ammo accounting, plus the
    snapshot the owning peer streams to every replica. */
module Guns {
  import opened Common
  import opened PhotonStream

  datatype GunState = Ready | Empty | Reloading

  /** The GunData asset fields the logic reads; times in ticks. */
  datatype GunData = GunData(magCapacity: int, startAmmoRemain: int, timeBetFire: Tick, reloadTime: Tick)

  /** One peer's copy of a gun. `reloadDoneAt` is the tick at which the
      pending ReloadRoutine resumes; it only matters while Reloading. */
  datatype Gun = Gun(state: GunState, ammoRemain: int, magAmmo: int, lastFireTime: Tick, reloadDoneAt: Tick)

  /** Remote calls addressed to a gun's PhotonView. */
  datatype GunCall = ShotProcessOnServer | AddAmmo(ammo: int)

  /** A Fire attempt: the gun afterwards and the calls it sent. */
  datatype FireResult = FireResult(gun: Gun, sent: seq<Rpc<GunCall>>)

  /** A Reload attempt: the returned flag and the gun afterwards. */
  datatype ReloadResult = ReloadResult(started: bool, gun: Gun)

  /** Every bullet the gun holds, in the magazine or in reserve. */
  function Total(g: Gun): int
  {
    g.magAmmo + g.ammoRemain
  }

  /** OnEnable: full magazine, starting reserve, Ready, never fired. */
  function OnEnable(data: GunData): (g: Gun)
    ensures g.magAmmo == data.magCapacity && g.ammoRemain == data.startAmmoRemain
    ensures g.state == Ready && g.lastFireTime == 0
    ensures Total(g) == data.magCapacity + data.startAmmoRemain
    ensures data.magCapacity > 0 ==> OwnerInvariant(g, data)
    ensures forall now: Tick :: now >= data.timeBetFire ==> CanFire(g, data, now)
  {
    Gun(Ready, data.startAmmoRemain, data.magCapacity, 0, 0)
  }

  /** The AddAmmo RPC: only the reserve grows. */
  function AddAmmoTo(g: Gun, ammo: int): (r: Gun)
    ensures r.ammoRemain == g.ammoRemain + ammo
    ensures Total(r) == Total(g) + ammo
    ensures r.magAmmo == g.magAmmo && r.state == g.state
    ensures r.lastFireTime == g.lastFireTime && r.reloadDoneAt == g.reloadDoneAt
  {
    g.(ammoRemain := g.ammoRemain + ammo)
  }

  /** The guard of Fire: Ready and the cooldown since the last shot elapsed. */
  predicate CanFire(g: Gun, data: GunData, now: Tick)
  {
    g.state == Ready && now >= g.lastFireTime + data.timeBetFire
  }

  /** Shot: hand the hit test to the master and spend one bullet. */
  function Shot(g: Gun): (r: FireResult)
    ensures r.sent == [Rpc(MasterClient, ShotProcessOnServer)]
    ensures r.gun.magAmmo == g.magAmmo - 1 && r.gun.ammoRemain == g.ammoRemain
    ensures r.gun.state == Empty <==> (r.gun.magAmmo <= 0 || g.state == Empty)
    ensures r.gun.magAmmo > 0 ==> r.gun.state == g.state
    ensures r.gun.lastFireTime == g.lastFireTime && r.gun.reloadDoneAt == g.reloadDoneAt
  {
    var mag := g.magAmmo - 1;
    FireResult(g.(magAmmo := mag, state := if mag <= 0 then Empty else g.state),
               [Rpc(MasterClient, ShotProcessOnServer)])
  }

  /** Fire: shoot when the guard holds, otherwise change nothing. */
  function Fire(g: Gun, data: GunData, now: Tick): (r: FireResult)
    ensures |r.sent| > 0 <==> CanFire(g, data, now)
    ensures !CanFire(g, data, now) ==> r.gun == g && r.sent == []
    ensures CanFire(g, data, now) ==>
      && r.gun.lastFireTime == now
      && Total(r.gun) == Total(g) - 1
      && r.gun.ammoRemain == g.ammoRemain
      && (r.gun.state == Empty <==> r.gun.magAmmo <= 0)
      && (r.gun.magAmmo > 0 ==> r.gun.state == Ready)
      && r.gun.reloadDoneAt == g.reloadDoneAt
      && r.sent == [Rpc(MasterClient, ShotProcessOnServer)]
  {
    if CanFire(g, data, now) then Shot(g.(lastFireTime := now)) else FireResult(g, [])
  }

  /** Reload: refuse while reloading, with an empty reserve or a full
      magazine; otherwise start ReloadRoutine, whose first phase switches to
      Reloading and schedules the second `reloadTime` ticks later. */
  function Reload(g: Gun, data: GunData, now: Tick): (r: ReloadResult)
    ensures r.started <==> g.state != Reloading && g.ammoRemain > 0 && g.magAmmo < data.magCapacity
    ensures !r.started ==> r.gun == g
    ensures r.started ==>
      && r.gun.state == Reloading
      && r.gun.reloadDoneAt == now + data.reloadTime
      && r.gun.magAmmo == g.magAmmo && r.gun.ammoRemain == g.ammoRemain
      && r.gun.lastFireTime == g.lastFireTime
  {
    if g.state == Reloading || g.ammoRemain <= 0 || g.magAmmo >= data.magCapacity then
      ReloadResult(false, g)
    else
      ReloadResult(true, g.(state := Reloading, reloadDoneAt := now + data.reloadTime))
  }

  /** Second phase of ReloadRoutine: move as many bullets as fit, or as are
      left, from the reserve into the magazine. */
  function FinishReload(g: Gun, data: GunData): (r: Gun)
    ensures Total(r) == Total(g)
    ensures r.magAmmo == Min(data.magCapacity, g.magAmmo + g.ammoRemain)
    ensures r.ammoRemain >= 0
    ensures r.state == Ready
    ensures r.lastFireTime == g.lastFireTime
  {
    var toFill := data.magCapacity - g.magAmmo;
    var fill := if g.ammoRemain < toFill then g.ammoRemain else toFill;
    g.(magAmmo := g.magAmmo + fill, ammoRemain := g.ammoRemain - fill, state := Ready)
  }

  /** The coroutine scheduler at tick `now`: a pending reload whose wait has
      elapsed resumes; anything else is left alone. */
  function Advance(g: Gun, data: GunData, now: Tick): (r: Gun)
    ensures g.state == Reloading && now >= g.reloadDoneAt ==> r == FinishReload(g, data)
    ensures g.state == Reloading && now >= g.reloadDoneAt ==> r.state == Ready && Total(r) == Total(g)
    ensures !(g.state == Reloading && now >= g.reloadDoneAt) ==> r == g
  {
    if g.state == Reloading && now >= g.reloadDoneAt then FinishReload(g, data) else g
  }

  /** What the owner's gun keeps true between frames, given a magazine that
      holds at least one bullet. */
  predicate OwnerInvariant(g: Gun, data: GunData)
  {
    && 0 <= g.magAmmo <= data.magCapacity
    && (g.state == Ready ==> g.magAmmo >= 1)
    && (g.state == Empty ==> g.magAmmo == 0)
    && (g.state == Reloading ==> g.magAmmo + g.ammoRemain >= 1)
  }

  /** The things that happen to the owner's gun: a fire press, a reload
      press, a frame in which coroutines resume, an AddAmmo delivery. */
  datatype OwnerStep = Trigger(now: Tick) | ReloadKey(now: Tick) | Resume(now: Tick) | Refill(ammo: nat)

  function Step(g: Gun, data: GunData, s: OwnerStep): Gun
  {
    match s
    case Trigger(now) => Fire(g, data, now).gun
    case ReloadKey(now) => Reload(g, data, now).gun
    case Resume(now) => Advance(g, data, now)
    case Refill(ammo) => AddAmmoTo(g, ammo)
  }

  function Run(g: Gun, data: GunData, steps: seq<OwnerStep>): Gun
    decreases |steps|
  {
    if |steps| == 0 then g else Run(Step(g, data, steps[0]), data, steps[1..])
  }

  lemma StepKeepsInvariant(g: Gun, data: GunData, s: OwnerStep)
    requires data.magCapacity > 0
    requires OwnerInvariant(g, data)
    ensures OwnerInvariant(Step(g, data, s), data)
  {
  }

  /** From OnEnable, every run of owner steps keeps the magazine within
      [0, magCapacity], Ready only with a bullet loaded and Empty only with
      none. */
  lemma {:induction false} RunKeepsInvariant(g: Gun, data: GunData, steps: seq<OwnerStep>)
    requires data.magCapacity > 0
    requires OwnerInvariant(g, data)
    ensures OwnerInvariant(Run(g, data, steps), data)
    decreases |steps|
  {
    if |steps| > 0 {
      StepKeepsInvariant(g, data, steps[0]);
      RunKeepsInvariant(Step(g, data, steps[0]), data, steps[1..]);
    }
  }

  lemma EnabledGunKeepsInvariant(data: GunData, steps: seq<OwnerStep>)
    requires data.magCapacity > 0
    ensures OwnerInvariant(Run(OnEnable(data), data, steps), data)
  {
    RunKeepsInvariant(OnEnable(data), data, steps);
  }

  /** Bullets only leave by firing and only arrive by AddAmmo: over a run,
      the total changes by the refills minus the shots. */
  function Refills(steps: seq<OwnerStep>): int
  {
    if |steps| == 0 then 0
    else (if steps[0].Refill? then steps[0].ammo else 0) + Refills(steps[1..])
  }

  lemma {:induction false} RunAccountsForAmmo(g: Gun, data: GunData, steps: seq<OwnerStep>)
    ensures Total(Run(g, data, steps)) <= Total(g) + Refills(steps)
    ensures Total(Run(g, data, steps)) >= Total(g) + Refills(steps) - |steps|
    decreases |steps|
  {
    if |steps| > 0 {
      RunAccountsForAmmo(Step(g, data, steps[0]), data, steps[1..]);
    }
  }

  /** Receipt of a gun RPC on one peer. The hit test behind
      ShotProcessOnServer is physics and leaves the gun as it is. */
  function Receive(g: Gun, c: GunCall): (r: Gun)
    ensures c.AddAmmo? ==> r.ammoRemain == g.ammoRemain + c.ammo
    ensures r.magAmmo == g.magAmmo && r.state == g.state
  {
    match c
    case ShotProcessOnServer => g
    case AddAmmo(ammo) => AddAmmoTo(g, ammo)
  }

  /** Delivery of a sender's calls, in order, to one peer's copy of the gun. */
  function Deliver(g: Gun, sent: seq<Rpc<GunCall>>, isSender: bool, isMaster: bool): (r: Gun)
    ensures r.magAmmo == g.magAmmo && r.state == g.state
    decreases |sent|
  {
    if |sent| == 0 then g
    else
      var g' := if RunsOn(sent[0].target, isSender, isMaster) then Receive(g, sent[0].call) else g;
      Deliver(g', sent[1..], isSender, isMaster)
  }

  function StateOrdinal(s: GunState): int
  {
    match s
    case Ready => 0
    case Empty => 1
    case Reloading => 2
  }

  function StateFromOrdinal(k: int): (r: Option<GunState>)
    ensures r.Some? <==> 0 <= k < 3
    ensures r.Some? ==> StateOrdinal(r.value) == k
  {
    if k == 0 then Some(Ready) else if k == 1 then Some(Empty) else if k == 2 then Some(Reloading) else None
  }

  /** The owner's side of OnPhotonSerializeView: reserve, magazine, state. */
  function Serialize(g: Gun): (r: seq<Value>)
    ensures |r| == 3 && Unboxes(r[0]) && Unboxes(r[1]) && r[2].EnumValue?
    ensures AsInt(r[0]) == g.ammoRemain && AsInt(r[1]) == g.magAmmo
    ensures StateFromOrdinal(r[2].ordinal) == Some(g.state)
  {
    [IntValue(g.ammoRemain), IntValue(g.magAmmo), EnumValue(StateOrdinal(g.state))]
  }

  /** A replica's side: read the reserve, the magazine and the state in
      that order, assigning each as it is read. A read that throws stops the
      branch and keeps the fields assigned so far. The state read also
      throws here on an ordinal outside the three named states. */
  function Deserialize(replica: Gun, s: seq<Value>): (r: Deserialized<Gun>)
    ensures !r.thrown <==> |s| >= 3 && Unboxes(s[0]) && Unboxes(s[1]) && Unboxes(s[2]) && 0 <= AsInt(s[2]) < 3
    ensures !r.thrown ==>
      && r.got == replica.(ammoRemain := AsInt(s[0]), magAmmo := AsInt(s[1]), state := StateFromOrdinal(AsInt(s[2])).value)
      && r.rest == s[3..]
    ensures r.got.ammoRemain == (if |s| > 0 && Unboxes(s[0]) then AsInt(s[0]) else replica.ammoRemain)
    ensures r.got.magAmmo == (if |s| > 1 && Unboxes(s[0]) && Unboxes(s[1]) then AsInt(s[1]) else replica.magAmmo)
    ensures r.thrown ==> r.got.state == replica.state
    ensures r.got.lastFireTime == replica.lastFireTime && r.got.reloadDoneAt == replica.reloadDoneAt
  {
    match ReceiveInt(s)
    case None => Deserialized(replica, s, true)
    case Some(Received(ammoRemain, s1)) =>
      var g1 := replica.(ammoRemain := ammoRemain);
      match ReceiveInt(s1)
      case None => Deserialized(g1, s1, true)
      case Some(Received(magAmmo, s2)) =>
        var g2 := g1.(magAmmo := magAmmo);
        match ReceiveInt(s2)
        case None => Deserialized(g2, s2, true)
        case Some(Received(k, s3)) =>
          match StateFromOrdinal(k)
          case None => Deserialized(g2, s2, true)
          case Some(state) => Deserialized(g2.(state := state), s3, false)
  }

  /** A replica that reads what the owner wrote ends up with the owner's
      reserve, magazine and state, and leaves the rest of the stream unread. */
  lemma SnapshotRoundTrip(owner: Gun, replica: Gun, rest: seq<Value>)
    ensures Deserialize(replica, Serialize(owner) + rest)
         == Deserialized(replica.(ammoRemain := owner.ammoRemain, magAmmo := owner.magAmmo, state := owner.state), rest, false)
  {
    var s := Serialize(owner) + rest;
    assert s[3..] == rest;
  }
}

=== FILE: item_spawning.dfy ===
/** ItemSpawner: on the master, every so often, one randomly chosen item
    appears around the world origin and is destroyed on every peer five
    seconds later unless a player used it first. */
module ItemSpawning {
  import opened Common
  import Lifecycle

  /** The spawner's timing, in ticks. */
  datatype ItemSpawner = ItemSpawner(timeBetSpawnMin: Tick, timeBetSpawnMax: Tick, timeBetSpawn: Tick, lastSpawnTime: Tick)

  /** A spawned item: its new view id and which entry of `items` it copies. */
  datatype Spawned = Spawned(id: ViewId, item: nat)

  /** One Update: the spawner afterwards, the item instantiated, if any, and
      the DestroyAfter coroutine started for it. */
  datatype SpawnFrame = SpawnFrame(spawner: ItemSpawner, spawned: Option<Spawned>, timer: Option<Lifecycle.Timer>)

  const DefaultTimeBetSpawnMin: Tick := 2 * TicksPerSecond
  const DefaultTimeBetSpawnMax: Tick := 7 * TicksPerSecond
  const ItemLifetime: Tick := 5 * TicksPerSecond

  /** The spawner as the scene configures it, before Start. */
  function Initial(): (s: ItemSpawner)
    ensures s.timeBetSpawnMin == 2000 && s.timeBetSpawnMax == 7000
  {
    ItemSpawner(DefaultTimeBetSpawnMin, DefaultTimeBetSpawnMax, 0, 0)
  }

  function Lower(s: ItemSpawner): Tick { Min(s.timeBetSpawnMin, s.timeBetSpawnMax) }

  function Upper(s: ItemSpawner): Tick
  {
    if s.timeBetSpawnMin <= s.timeBetSpawnMax then s.timeBetSpawnMax else s.timeBetSpawnMin
  }

  /** `Random.Range(min, max)` on floats: a value between the two bounds,
      both included, in either order. `seed` is the draw. */
  function RandomRange(min: Tick, max: Tick, seed: nat): (r: Tick)
    ensures min <= max ==> min <= r <= max
    ensures max < min ==> max <= r <= min
    ensures min == max ==> r == min
  {
    if min <= max then min + seed % (max - min + 1) else max + seed % (min - max + 1)
  }

  /** `Random.Range(0, count)` on ints: an index below `count`, or 0 when
      `count` is 0. */
  function RandomIndex(count: nat, seed: nat): (r: nat)
    ensures count > 0 ==> r < count
    ensures count == 0 ==> r == 0
  {
    if count == 0 then 0 else seed % count
  }

  /** The interval between spawns lies between the configured bounds. */
  predicate InWindow(s: ItemSpawner)
  {
    Lower(s) <= s.timeBetSpawn <= Upper(s)
  }

  /** Start: draw the first interval and count it from tick zero. */
  function Start(s: ItemSpawner, seed: nat): (r: ItemSpawner)
    ensures InWindow(r) && r.lastSpawnTime == 0
    ensures r.timeBetSpawnMin == s.timeBetSpawnMin && r.timeBetSpawnMax == s.timeBetSpawnMax
  {
    s.(timeBetSpawn := RandomRange(s.timeBetSpawnMin, s.timeBetSpawnMax, seed), lastSpawnTime := 0)
  }

  /** Whether the interval since the last spawn has passed. */
  predicate Due(s: ItemSpawner, now: Tick)
  {
    now >= s.lastSpawnTime + s.timeBetSpawn
  }

  /** Update. Any peer but the master returns at once. On the master, once
      the interval has passed: note the time, draw the next interval, then
      Spawn, which picks an item and instantiates it everywhere with a
      five-second DestroyAfter. With no item configured the pick throws
      after the timing was updated, so nothing appears. */
  function Update(s: ItemSpawner, isMaster: bool, now: Tick, seed: nat, itemCount: nat, pickSeed: nat, newId: ViewId): (r: SpawnFrame)
    ensures !isMaster || !Due(s, now) ==> r == SpawnFrame(s, None, None)
    ensures isMaster && Due(s, now) ==>
      && r.spawner.lastSpawnTime == now
      && r.spawner.timeBetSpawnMin == s.timeBetSpawnMin && r.spawner.timeBetSpawnMax == s.timeBetSpawnMax
      && InWindow(r.spawner)
    ensures r.spawned.Some? <==> isMaster && Due(s, now) && itemCount > 0
    ensures r.spawned.Some? ==> r.spawned.value.id == newId && r.spawned.value.item < itemCount
    ensures r.spawned.Some? <==> r.timer.Some?
    ensures r.timer.Some? ==> r.timer.value == Lifecycle.DestroyAfter(newId, now + ItemLifetime)
    ensures InWindow(s) ==> InWindow(r.spawner)
  {
    if !isMaster || !Due(s, now) then SpawnFrame(s, None, None)
    else
      var s1 := s.(lastSpawnTime := now, timeBetSpawn := RandomRange(s.timeBetSpawnMin, s.timeBetSpawnMax, seed));
      if itemCount == 0 then SpawnFrame(s1, None, None)
      else SpawnFrame(s1, Some(Spawned(newId, RandomIndex(itemCount, pickSeed))), Some(Lifecycle.Schedule(newId, now, ItemLifetime)))
  }

  /** The master's calls to Update: a tick and the random draws of that frame. */
  datatype Frame = Frame(now: Tick, seed: nat, pickSeed: nat, newId: ViewId)

  /** The spawner after a run of frames. */
  function Run(s: ItemSpawner, itemCount: nat, frames: seq<Frame>): ItemSpawner
    decreases |frames|
  {
    if |frames| == 0 then s
    else
      var f := frames[0];
      Run(Update(s, true, f.now, f.seed, itemCount, f.pickSeed, f.newId).spawner, itemCount, frames[1..])
  }

  /** The ticks at which a run of frames spawned an item. */
  function SpawnTimes(s: ItemSpawner, itemCount: nat, frames: seq<Frame>): seq<Tick>
    decreases |frames|
  {
    if |frames| == 0 then []
    else
      var f := frames[0];
      var out := Update(s, true, f.now, f.seed, itemCount, f.pickSeed, f.newId);
      (if out.spawned.Some? then [f.now] else []) + SpawnTimes(out.spawner, itemCount, frames[1..])
  }

  /** Once started, the interval stays within its bounds through any run. */
  lemma {:induction false} RunKeepsWindow(s: ItemSpawner, itemCount: nat, frames: seq<Frame>)
    requires InWindow(s)
    ensures InWindow(Run(s, itemCount, frames))
    ensures Lower(Run(s, itemCount, frames)) == Lower(s) && Upper(Run(s, itemCount, frames)) == Upper(s)
    decreases |frames|
  {
    if |frames| > 0 {
      var f := frames[0];
      RunKeepsWindow(Update(s, true, f.now, f.seed, itemCount, f.pickSeed, f.newId).spawner, itemCount, frames[1..]);
    }
  }

  /** With no item configured, no Update ever spawns. */
  lemma {:induction false} NothingToSpawn(s: ItemSpawner, frames: seq<Frame>)
    ensures SpawnTimes(s, 0, frames) == []
    decreases |frames|
  {
    if |frames| > 0 {
      var f := frames[0];
      NothingToSpawn(Update(s, true, f.now, f.seed, 0, f.pickSeed, f.newId).spawner, frames[1..]);
    }
  }

  /** Two spawns of a run are never closer than the lower bound: each spawn
      happens at or after the previous one plus an interval drawn from the
      window. The first waits for the interval current before the run. */
  lemma {:induction false} SpawnsAreSpaced(s: ItemSpawner, itemCount: nat, frames: seq<Frame>)
    requires InWindow(s)
    ensures var times := SpawnTimes(s, itemCount, frames);
            && (|times| > 0 ==> times[0] >= s.lastSpawnTime + s.timeBetSpawn)
            && (forall k :: 0 <= k < |times| - 1 ==> times[k + 1] >= times[k] + Lower(s))
    decreases |frames|
  {
    if |frames| > 0 {
      var f := frames[0];
      var out := Update(s, true, f.now, f.seed, itemCount, f.pickSeed, f.newId);
      var s1 := out.spawner;
      SpawnsAreSpaced(s1, itemCount, frames[1..]);
      var tail := SpawnTimes(s1, itemCount, frames[1..]);
      var head: seq<Tick> := if out.spawned.Some? then [f.now] else [];
      var times := head + tail;
      assert times == SpawnTimes(s, itemCount, frames);
      if !Due(s, f.now) {
        assert s1 == s && times == tail;
      } else if out.spawned.None? {
        NothingToSpawn(s1, frames[1..]);
      } else {
        // The spawn reset the clock to its own tick.
        assert s1.lastSpawnTime == f.now && Lower(s1) == Lower(s);
        forall k | 0 <= k < |times| - 1 ensures times[k + 1] >= times[k] + Lower(s) {
          if k == 0 {
            assert times[0] == f.now && times[1] == tail[0];
          } else {
            assert times[k] == tail[k - 1] && times[k + 1] == tail[k];
          }
        }
      }
    }
  }
}

=== FILE: items.dfy ===
/** The three pickups. Each is used on the master only, applies its effect,
    and destroys itself on every peer. The ammo pack reaches the other peers
    through an RPC to All; the health pack relies on RestoreHealth's own
    fan-out; the coin relies on the streamed score. */
module Items {
  import opened Common
  import Living
  import Guns
  import Players
  import Game
  import Lifecycle

  /** An item and the amount it grants. */
  datatype Item = AmmoPack(ammo: int) | HealthPack(health: real) | Coin(score: int)

  const DefaultAmmo: int := 30
  const DefaultHealth: real := 50.0
  const DefaultScore: int := 200

  /** The items as the prefabs configure them. */
  function Defaults(): (r: seq<Item>)
    ensures |r| == 3
    ensures r[0].AmmoPack? && r[0].ammo == 30
    ensures r[1].HealthPack? && r[1].health == 50.0
    ensures r[2].Coin? && r[2].score == 200
  {
    [AmmoPack(DefaultAmmo), HealthPack(DefaultHealth), Coin(DefaultScore)]
  }

  /** Everything one Use touches. `player` is the touched object's player
      components, None when it has none; `gunCalls` go to that player's gun,
      `healthCalls` come from its LivingEntity; `room` is None when the
      item's own destroy fails because it is already gone. */
  datatype Effect = Effect(
    player: Option<Players.PlayerHealth>,
    game: Game.GameManager,
    gunCalls: seq<Rpc<Guns.GunCall>>,
    healthCalls: seq<Rpc<Living.HealthCall>>,
    room: Option<Lifecycle.Room>)

  /** AmmoPack.Use: a target with a shooter gets AddAmmo on every peer; the
      pack then destroys itself. Nothing changes locally before the RPC
      arrives. */
  function UseAmmoPack(ammo: int, self: ViewId, target: Option<Players.PlayerHealth>, game: Game.GameManager, room: Lifecycle.Room): (r: Effect)
    ensures target.Some? ==> r.gunCalls == [Rpc(All, Guns.AddAmmo(ammo))]
    ensures target.None? ==> r.gunCalls == []
    ensures r.player == target && r.game == game && r.healthCalls == []
    ensures r.room == Lifecycle.NetworkDestroy(room, self)
  {
    var calls := if target.Some? then [Rpc(All, Guns.AddAmmo(ammo))] else [];
    Effect(target, game, calls, [], Lifecycle.NetworkDestroy(room, self))
  }

  /** HealthPack.Use: a target with a LivingEntity runs its RestoreHealth,
      which is the player's override; no RPC of the pack's own. */
  function UseHealthPack(health: real, self: ViewId, target: Option<Players.PlayerHealth>, isMaster: bool, game: Game.GameManager, room: Lifecycle.Room): (r: Effect)
    ensures target.None? ==> r.player.None? && r.healthCalls == []
    ensures target.Some? ==> r.player == Some(Players.RestoreHealth(target.value, health, isMaster).player)
    ensures target.Some? ==> r.healthCalls == Living.RestoreHealth(target.value.life, health, isMaster).sent
    ensures target.Some? && target.value.life.dead ==> r.player.value.life == target.value.life && r.healthCalls == []
    ensures target.Some? && !target.value.life.dead && isMaster ==> r.player.value.life.health == target.value.life.health + health
    ensures r.game == game && r.gunCalls == []
    ensures r.room == Lifecycle.NetworkDestroy(room, self)
  {
    match target
    case None => Effect(None, game, [], [], Lifecycle.NetworkDestroy(room, self))
    case Some(p) =>
      var out := Players.RestoreHealth(p, health, isMaster);
      Effect(Some(out.player), game, [], out.sent, Lifecycle.NetworkDestroy(room, self))
  }

  /** Coin.Use: add the score, whoever touched it; no RPC. */
  function UseCoin(score: int, self: ViewId, target: Option<Players.PlayerHealth>, game: Game.GameManager, room: Lifecycle.Room): (r: Effect)
    ensures !game.isGameover ==> r.game.score == game.score + score
    ensures game.isGameover ==> r.game == game
    ensures r.player == target && r.gunCalls == [] && r.healthCalls == []
    ensures r.room == Lifecycle.NetworkDestroy(room, self)
  {
    Effect(target, Game.AddScore(game, score), [], [], Lifecycle.NetworkDestroy(room, self))
  }

  /** IItem.Use, dispatched on the item. */
  function Use(item: Item, self: ViewId, target: Option<Players.PlayerHealth>, isMaster: bool, game: Game.GameManager, room: Lifecycle.Room): (r: Effect)
    ensures !item.Coin? ==> r.game == game
    ensures !item.HealthPack? ==> r.player == target && r.healthCalls == []
    ensures !item.AmmoPack? ==> r.gunCalls == []
    ensures self in room <==> r.room == Some(room - {self})
    ensures self !in room <==> r.room.None?
  {
    match item
    case AmmoPack(ammo) => UseAmmoPack(ammo, self, target, game, room)
    case HealthPack(health) => UseHealthPack(health, self, target, isMaster, game, room)
    case Coin(score) => UseCoin(score, self, target, game, room)
  }

  /** The ammo pack's RPC raises the reserve by exactly the pack's ammo on
      every peer, whichever copy of the gun it finds there, and leaves the
      magazine and the gun's state alone. */
  lemma AmmoReachesEveryPeer(ammo: int, self: ViewId, p: Players.PlayerHealth, game: Game.GameManager, room: Lifecycle.Room,
                             g: Guns.Gun, isSender: bool, isMaster: bool)
    ensures var sent := UseAmmoPack(ammo, self, Some(p), game, room).gunCalls;
            Guns.Deliver(g, sent, isSender, isMaster) == Guns.AddAmmoTo(g, ammo)
  {
    var sent := UseAmmoPack(ammo, self, Some(p), game, room).gunCalls;
    assert RunsOn(sent[0].target, isSender, isMaster);
    assert Guns.Deliver(g, sent, isSender, isMaster) == Guns.Deliver(Guns.AddAmmoTo(g, ammo), [], isSender, isMaster);
  }

  /** A health pack used on the master heals every replica of a living
      player to the master's health. */
  lemma HealthReachesEveryPeer(health: real, self: ViewId, p: Players.PlayerHealth, game: Game.GameManager, room: Lifecycle.Room,
                               replica: Living.LivingEntity)
    requires !p.life.dead
    ensures var r := UseHealthPack(health, self, Some(p), true, game, room);
            Living.SameVitals(Living.Replay(replica, r.healthCalls), r.player.value.life)
  {
    Living.RestoreConverges(p.life, replica, health);
  }
}

=== FILE: lifecycle.dfy ===
/** Networked object lifetime: `PhotonNetwork.Destroy` on the objects alive in
    the room, and the DestroyAfter coroutine that destroys a target later
    only if it still exists. */
module Lifecycle {
  import opened Common

  /** The networked objects currently alive in the room. */
  type Room = set<ViewId>

  /** A started DestroyAfter coroutine: its target and the tick it wakes. */
  datatype Timer = DestroyAfter(target: ViewId, due: Tick)

  /** `PhotonNetwork.Destroy(target)`: removes a live object everywhere;
      None for an object that is already gone, where the call would fail. */
  function NetworkDestroy(room: Room, target: ViewId): (r: Option<Room>)
    ensures r.Some? <==> target in room
    ensures r.Some? ==> r.value == room - {target} && |r.value| == |room| - 1
  {
    if target in room then Some(room - {target}) else None
  }

  /** Starting DestroyAfter(target, delay) at tick `now`. */
  function Schedule(target: ViewId, now: Tick, delay: Tick): (t: Timer)
    ensures t.target == target && t.due - now == delay
  {
    DestroyAfter(target, now + delay)
  }

  /** The coroutine at tick `now`: before its due tick it waits; after it,
      it destroys the target if the target is still there, and otherwise
      does nothing. It never fails. */
  function Expire(room: Room, t: Timer, now: Tick): (r: Room)
    ensures now < t.due ==> r == room
    ensures now >= t.due ==> r == room - {t.target}
    ensures now >= t.due && t.target in room ==> Some(r) == NetworkDestroy(room, t.target)
  {
    if now >= t.due && t.target in room then NetworkDestroy(room, t.target).value else room
  }

  /** Destroy is idempotent behind the guard: a second expiry, or an expiry
      after another path destroyed the target, leaves the room as it is. */
  lemma ExpireIdempotent(room: Room, t: Timer, now: Tick, later: Tick)
    requires now <= later
    ensures Expire(Expire(room, t, now), t, later) == Expire(room, t, later)
  {
  }

  lemma ExpireAfterDestroy(room: Room, t: Timer, now: Tick)
    requires t.target in room
    ensures Expire(NetworkDestroy(room, t.target).value, t, now) == NetworkDestroy(room, t.target).value
  {
  }
}

=== FILE: living.dfy ===
/** LivingEntity: health and death under master authority. The master alone
    changes health, then fans the outcome out to the other peers as two
    ordered calls; every other peer replays them on its replica. */
module Living {
  import opened Common

  /** One peer's copy of a damageable entity. */
  datatype LivingEntity = LivingEntity(startingHealth: real, health: real, dead: bool)

  /** The calls an entity sends to `Others`. */
  datatype HealthCall =
    | ApplyUpdatedHealthCall(newHealth: real, newDead: bool)
    | OnDamageCall(damage: real)
    | RestoreHealthCall(newHealth: real)

  /** One local run of OnDamage or RestoreHealth: the entity afterwards, the
      calls sent, and, when Die ran, the entity as the onDeath listeners saw
      it. */
  datatype Outcome = Outcome(entity: LivingEntity, sent: seq<Rpc<HealthCall>>, deathSeen: Option<LivingEntity>)
  {
    predicate Died() { deathSeen.Some? }
  }

  /** The ApplyUpdatedHealth RPC: an unconditional overwrite, no authority check. */
  function ApplyUpdatedHealth(e: LivingEntity, newHealth: real, newDead: bool): (r: LivingEntity)
    ensures r.health == newHealth && r.dead == newDead
    ensures r.startingHealth == e.startingHealth
  {
    e.(health := newHealth, dead := newDead)
  }

  /** OnEnable: alive again, at starting health. */
  function OnEnable(e: LivingEntity): (r: LivingEntity)
    ensures !r.dead && r.health == r.startingHealth == e.startingHealth
  {
    e.(dead := false, health := e.startingHealth)
  }

  /** Die: the onDeath listeners run first, then the entity is marked dead. */
  function Die(e: LivingEntity): (r: Outcome)
    ensures r.deathSeen == Some(e) && r.entity == e.(dead := true) && r.sent == []
  {
    Outcome(e.(dead := true), [], Some(e))
  }

  /** OnDamage on one peer. On the master: subtract the damage, send
      ApplyUpdatedHealth(health, dead) and then OnDamage to the others. On
      every peer: die when health is spent and the entity is not yet dead. */
  function OnDamage(e: LivingEntity, damage: real, isMaster: bool): (r: Outcome)
    ensures isMaster ==> r.entity.health == e.health - damage
    ensures isMaster ==> r.sent == [Rpc(Others, ApplyUpdatedHealthCall(e.health - damage, e.dead)),
                                    Rpc(Others, OnDamageCall(damage))]
    ensures !isMaster ==> r.entity.health == e.health && r.sent == []
    ensures r.entity.dead <==> e.dead || r.entity.health <= 0.0
    ensures r.Died() <==> !e.dead && r.entity.health <= 0.0
    ensures r.Died() ==> !r.deathSeen.value.dead && r.deathSeen.value.health == r.entity.health
    ensures r.entity.startingHealth == e.startingHealth
  {
    var e1 := if isMaster then e.(health := e.health - damage) else e;
    var sent := if isMaster then [Rpc(Others, ApplyUpdatedHealthCall(e1.health, e1.dead)),
                                  Rpc(Others, OnDamageCall(damage))] else [];
    if e1.health <= 0.0 && !e1.dead then
      var d := Die(e1);
      Outcome(d.entity, sent, d.deathSeen)
    else
      Outcome(e1, sent, None)
  }

  /** RestoreHealth on one peer: nothing for the dead; otherwise the master
      adds the amount, uncapped, and fans out ApplyUpdatedHealth then
      RestoreHealth; any other peer changes nothing. */
  function RestoreHealth(e: LivingEntity, newHealth: real, isMaster: bool): (r: Outcome)
    ensures e.dead || !isMaster ==> r.entity == e && r.sent == []
    ensures !e.dead && isMaster ==>
      && r.entity == e.(health := e.health + newHealth)
      && r.sent == [Rpc(Others, ApplyUpdatedHealthCall(e.health + newHealth, false)),
                    Rpc(Others, RestoreHealthCall(newHealth))]
    ensures !r.Died()
  {
    if e.dead then Outcome(e, [], None)
    else if isMaster then
      var e1 := e.(health := e.health + newHealth);
      Outcome(e1, [Rpc(Others, ApplyUpdatedHealthCall(e1.health, e1.dead)),
                   Rpc(Others, RestoreHealthCall(newHealth))], None)
    else Outcome(e, [], None)
  }

  /** A call arriving at a peer that is not the master. */
  function Receive(e: LivingEntity, c: HealthCall): LivingEntity
  {
    match c
    case ApplyUpdatedHealthCall(h, d) => ApplyUpdatedHealth(e, h, d)
    case OnDamageCall(damage) => OnDamage(e, damage, false).entity
    case RestoreHealthCall(amount) => RestoreHealth(e, amount, false).entity
  }

  /** In-order delivery of the master's calls to a replica on another peer. */
  function Replay(e: LivingEntity, sent: seq<Rpc<HealthCall>>): LivingEntity
    decreases |sent|
  {
    if |sent| == 0 then e
    else
      var e' := if RunsOn(sent[0].target, false, false) then Receive(e, sent[0].call) else e;
      Replay(e', sent[1..])
  }

  predicate SameVitals(a: LivingEntity, b: LivingEntity)
  {
    a.health == b.health && a.dead == b.dead
  }

  /** Whatever state a replica was in, replaying the master's OnDamage calls
      leaves it with the master's health and death flag. */
  lemma DamageConverges(master: LivingEntity, replica: LivingEntity, damage: real)
    ensures var out := OnDamage(master, damage, true);
            SameVitals(Replay(replica, out.sent), out.entity)
  {
    var out := OnDamage(master, damage, true);
    var r1 := ApplyUpdatedHealth(replica, master.health - damage, master.dead);
    var r2 := OnDamage(r1, damage, false).entity;
    assert Replay(replica, out.sent) == Replay(r1, out.sent[1..]) == Replay(r2, []) == r2;
  }

  /** The same for RestoreHealth. */
  lemma RestoreConverges(master: LivingEntity, replica: LivingEntity, amount: real)
    ensures var out := RestoreHealth(master, amount, true);
            !master.dead ==> SameVitals(Replay(replica, out.sent), out.entity)
  {
    var out := RestoreHealth(master, amount, true);
    if !master.dead {
      var r1 := ApplyUpdatedHealth(replica, master.health + amount, false);
      assert Replay(replica, out.sent) == Replay(r1, out.sent[1..]) == Replay(r1, []) == r1;
    }
  }

  /** The calls a peer issues against its own copy of an entity. */
  datatype LocalCall = Damage(damage: real) | Restore(amount: real)

  function Apply(e: LivingEntity, c: LocalCall, isMaster: bool): Outcome
  {
    match c
    case Damage(d) => OnDamage(e, d, isMaster)
    case Restore(a) => RestoreHealth(e, a, isMaster)
  }

  /** The entity after a sequence of local calls. */
  function After(e: LivingEntity, calls: seq<LocalCall>, isMaster: bool): LivingEntity
    decreases |calls|
  {
    if |calls| == 0 then e else After(Apply(e, calls[0], isMaster).entity, calls[1..], isMaster)
  }

  /** How many times Die ran over a sequence of local calls. */
  function Deaths(e: LivingEntity, calls: seq<LocalCall>, isMaster: bool): nat
    decreases |calls|
  {
    if |calls| == 0 then 0
    else
      var out := Apply(e, calls[0], isMaster);
      (if out.Died() then 1 else 0) + Deaths(out.entity, calls[1..], isMaster)
  }

  /** Once dead, an entity stays dead until it is enabled again. */
  lemma {:induction false} DeadStaysDead(e: LivingEntity, calls: seq<LocalCall>, isMaster: bool)
    requires e.dead
    ensures After(e, calls, isMaster).dead
    ensures Deaths(e, calls, isMaster) == 0
    decreases |calls|
  {
    if |calls| > 0 {
      DeadStaysDead(Apply(e, calls[0], isMaster).entity, calls[1..], isMaster);
    }
  }

  /** Death happens at most once per life: Die runs only on a living entity
      and leaves it dead. */
  lemma {:induction false} DiesAtMostOnce(e: LivingEntity, calls: seq<LocalCall>, isMaster: bool)
    ensures Deaths(e, calls, isMaster) <= (if e.dead then 0 else 1)
    decreases |calls|
  {
    if |calls| > 0 {
      var out := Apply(e, calls[0], isMaster);
      if out.Died() {
        DeadStaysDead(out.entity, calls[1..], isMaster);
      } else {
        DiesAtMostOnce(out.entity, calls[1..], isMaster);
      }
    }
  }

  /** A peer that is not the master never changes health, whatever it is asked. */
  lemma {:induction false} NonMasterKeepsHealth(e: LivingEntity, calls: seq<LocalCall>)
    ensures After(e, calls, false).health == e.health
    decreases |calls|
  {
    if |calls| > 0 {
      NonMasterKeepsHealth(Apply(e, calls[0], false).entity, calls[1..]);
    }
  }
}

=== FILE: photon_stream.dfy ===
/** The PhotonStream an observed component writes to (`SendNext`) on the
    owner and reads back from (`ReceiveNext` plus a cast) on every replica. */
module PhotonStream {
  import opened Common

  /** A boxed value on the stream: an int, an enum (as its ordinal), or any
      other object, such as a float, a string or null. */
  datatype Value = IntValue(i: int) | EnumValue(ordinal: int) | OtherValue

  /** A successful typed read: the value and the still unread stream. */
  datatype Received<T> = Received(got: T, rest: seq<Value>)

  /** What a replica's read branch of OnPhotonSerializeView leaves behind.
      Each field is assigned as soon as it is read, so when a later read
      throws, `got` keeps the fields assigned before it; `rest` is the
      stream from the read that stopped the branch on. */
  datatype Deserialized<T> = Deserialized(got: T, rest: seq<Value>, thrown: bool)

  /** Whether `(int)` unboxes the value. An enum whose underlying type is
      int unboxes as that int, and a boxed int unboxes as the enum, so the
      same holds for a cast to such an enum. */
  predicate Unboxes(v: Value)
  {
    v.IntValue? || v.EnumValue?
  }

  /** The int an unboxing cast yields. */
  function AsInt(v: Value): int
    requires Unboxes(v)
  {
    if v.IntValue? then v.i else v.ordinal
  }

  /** `(int)stream.ReceiveNext()`, and equally `(E)stream.ReceiveNext()` for
      an int-backed enum E, which yields the ordinal. None when the stream
      is exhausted (`ReceiveNext` gives null) or the next value is of
      another type, where the cast would throw. */
  function ReceiveInt(s: seq<Value>): (r: Option<Received<int>>)
    ensures r.Some? <==> |s| > 0 && (s[0].IntValue? || s[0].EnumValue?)
    ensures r.Some? && s[0].IntValue? ==> r.value.got == s[0].i
    ensures r.Some? && s[0].EnumValue? ==> r.value.got == s[0].ordinal
    ensures r.Some? ==> [s[0]] + r.value.rest == s
  {
    if |s| > 0 && Unboxes(s[0]) then Some(Received(AsInt(s[0]), s[1..])) else None
  }

  /** An int or an enum written with `SendNext` is read back as the same
      number by either cast, and nothing after it is consumed. */
  lemma ReceiveWhatWasSent(x: int, rest: seq<Value>)
    ensures ReceiveInt([IntValue(x)] + rest) == Some(Received(x, rest))
    ensures ReceiveInt([EnumValue(x)] + rest) == Some(Received(x, rest))
  {
    assert ([IntValue(x)] + rest)[1..] == rest;
    assert ([EnumValue(x)] + rest)[1..] == rest;
  }
}

=== FILE: players.dfy ===
/** PlayerHealth: the player's LivingEntity with a health slider, the
    movement and shooter components it switches, a delayed respawn and the
    item pickup gate. */
module Players {
  import opened Common
  import Living
  import Guns
  import Shooting

  datatype Vec3 = Vec3(x: real, y: real, z: real)

  /** The health slider: shown or hidden, its maximum and its value. */
  datatype Slider = Slider(active: bool, maxValue: real, value: real)

  /** One peer's copy of a player avatar. `respawnAt` is the tick of the
      pending `Invoke("Respawn", 5f)`, if any. */
  datatype PlayerHealth = PlayerHealth(
    life: Living.LivingEntity,
    slider: Slider,
    movementEnabled: bool,
    shooter: Shooting.PlayerShooter,
    respawnAt: Option<Tick>,
    position: Vec3)

  /** One OnDamage or RestoreHealth on a player, with the sounds it played. */
  datatype PlayerOutcome = PlayerOutcome(player: PlayerHealth, sent: seq<Rpc<Living.HealthCall>>, hitSound: bool, died: bool)

  /** What touching an item does on this peer. */
  datatype Pickup = Pickup(useItem: bool, pickupSound: bool)

  const RespawnDelay: Tick := 5 * TicksPerSecond

  /** OnEnable: reset the entity, show the slider at full range and value,
      switch movement and shooter on. */
  function OnEnable(p: PlayerHealth, data: Guns.GunData): (r: PlayerHealth)
    ensures !r.life.dead && r.life.health == r.life.startingHealth == p.life.startingHealth
    ensures r.slider == Slider(true, r.life.startingHealth, r.life.health)
    ensures r.movementEnabled && r.shooter.enabled
    ensures Shooting.Mirrored(p.shooter) ==> Shooting.Mirrored(r.shooter)
    ensures r.respawnAt == p.respawnAt && r.position == p.position
  {
    var life := Living.OnEnable(p.life);
    p.(life := life,
       slider := Slider(true, life.startingHealth, life.health),
       movementEnabled := true,
       shooter := Shooting.SetEnabled(p.shooter, true, data))
  }

  /** The player's Die extras, after the base Die: hide the slider, switch
      movement and shooter off, and schedule Respawn five seconds on. */
  function DieExtras(p: PlayerHealth, data: Guns.GunData, now: Tick): (r: PlayerHealth)
    ensures !r.slider.active && !r.movementEnabled && !r.shooter.enabled
    ensures r.respawnAt == Some(now + RespawnDelay)
    ensures r.life == p.life && r.position == p.position
    ensures Shooting.Mirrored(p.shooter) ==> !r.shooter.gunActive
  {
    p.(slider := p.slider.(active := false),
       movementEnabled := false,
       shooter := Shooting.SetEnabled(p.shooter, false, data),
       respawnAt := Some(now + RespawnDelay))
  }

  /** OnDamage: the hit sound plays only for a living player; the base
      OnDamage applies the damage (on the master) and may run the player's
      Die; the slider then shows the current health. */
  function OnDamage(p: PlayerHealth, damage: real, isMaster: bool, data: Guns.GunData, now: Tick): (r: PlayerOutcome)
    ensures r.hitSound == !p.life.dead
    ensures r.player.life == Living.OnDamage(p.life, damage, isMaster).entity
    ensures r.sent == Living.OnDamage(p.life, damage, isMaster).sent
    ensures r.player.slider.value == r.player.life.health
    ensures r.died <==> !p.life.dead && r.player.life.health <= 0.0
    ensures r.died ==> !r.player.slider.active && !r.player.movementEnabled && !r.player.shooter.enabled
                       && r.player.respawnAt == Some(now + RespawnDelay)
    ensures !r.died ==> r.player == p.(life := r.player.life, slider := p.slider.(value := r.player.life.health))
  {
    var out := Living.OnDamage(p.life, damage, isMaster);
    var p1 := p.(life := out.entity);
    var p2 := if out.Died() then DieExtras(p1, data, now) else p1;
    PlayerOutcome(p2.(slider := p2.slider.(value := p2.life.health)), out.sent, !p.life.dead, out.Died())
  }

  /** RestoreHealth: the base restore, then the slider shows the health. */
  function RestoreHealth(p: PlayerHealth, amount: real, isMaster: bool): (r: PlayerOutcome)
    ensures r.player.life == Living.RestoreHealth(p.life, amount, isMaster).entity
    ensures r.sent == Living.RestoreHealth(p.life, amount, isMaster).sent
    ensures r.player.slider.value == r.player.life.health
    ensures !r.died && !r.hitSound
    ensures r.player.shooter == p.shooter && r.player.respawnAt == p.respawnAt
  {
    var out := Living.RestoreHealth(p.life, amount, isMaster);
    PlayerOutcome(p.(life := out.entity, slider := p.slider.(value := out.entity.health)), out.sent, false, false)
  }

  /** OnTriggerEnter: a living player touching an item uses it only on the
      master, and hears the pickup sound on every peer. */
  function OnTriggerEnter(p: PlayerHealth, touchedItem: bool, isMaster: bool): (r: Pickup)
    ensures r.useItem <==> !p.life.dead && touchedItem && isMaster
    ensures r.pickupSound <==> !p.life.dead && touchedItem
  {
    if !p.life.dead && touchedItem then Pickup(isMaster, true) else Pickup(false, false)
  }

  /** Respawn: only the owner moves the avatar, to a point five units around
      the origin at ground height; every peer then switches the avatar off
      and on, which runs OnDisable and OnEnable and so resets everything. */
  function Respawn(p: PlayerHealth, isMine: bool, unitSpherePoint: Vec3, data: Guns.GunData): (r: PlayerHealth)
    ensures !r.life.dead && r.life.health == r.life.startingHealth == p.life.startingHealth
    ensures r.slider == Slider(true, r.life.startingHealth, r.life.startingHealth)
    ensures r.movementEnabled && r.shooter.enabled
    ensures Shooting.Mirrored(p.shooter) ==> r.shooter.gunActive && r.shooter.gun == Guns.OnEnable(data)
    ensures isMine ==> r.position.y == 0.0
    ensures !isMine ==> r.position == p.position
    ensures r.respawnAt.None?
  {
    var pos := if isMine then Vec3(unitSpherePoint.x * 5.0, 0.0, unitSpherePoint.z * 5.0) else p.position;
    var off := p.(position := pos, shooter := Shooting.SetEnabled(p.shooter, false, data), respawnAt := None);
    OnEnable(off, data)
  }

  /** The pending Invoke fires once its tick has come. */
  function Advance(p: PlayerHealth, now: Tick, isMine: bool, unitSpherePoint: Vec3, data: Guns.GunData): (r: PlayerHealth)
    ensures p.respawnAt.Some? && now >= p.respawnAt.value ==> r == Respawn(p, isMine, unitSpherePoint, data)
    ensures p.respawnAt.Some? && now >= p.respawnAt.value ==> !r.life.dead && r.respawnAt.None?
    ensures !(p.respawnAt.Some? && now >= p.respawnAt.value) ==> r == p
  {
    if p.respawnAt.Some? && now >= p.respawnAt.value then Respawn(p, isMine, unitSpherePoint, data) else p
  }

  /** A player killed on the master and respawned later is back at full
      health with a full magazine. */
  lemma KilledPlayerRespawnsRefilled(p: PlayerHealth, damage: real, data: Guns.GunData, now: Tick, later: Tick, isMine: bool, point: Vec3)
    requires !p.life.dead && Shooting.Mirrored(p.shooter)
    requires p.life.health - damage <= 0.0
    requires later >= now + RespawnDelay
    ensures var out := OnDamage(p, damage, true, data, now);
            && out.died
            && var q := Advance(out.player, later, isMine, point, data);
               && q.life.health == q.life.startingHealth
               && q.shooter.gun == Guns.OnEnable(data)
  {
    var out := OnDamage(p, damage, true, data, now);
    assert Shooting.Mirrored(out.player.shooter);
  }
}

=== FILE: shooting.dfy ===
/** PlayerShooter: dispatches the owner's input to the gun, fire before
    reload, refreshes the ammo display, and switches the gun on and off
    together with itself. */
module Shooting {
  import opened Common
  import Guns

  /** A shooter component with the gun it holds. `gunActive` is whether the
      gun's game object is active. */
  datatype PlayerShooter = PlayerShooter(enabled: bool, gunActive: bool, gun: Guns.Gun)

  /** The two buttons the shooter reads from PlayerInput. */
  datatype PlayerInput = PlayerInput(fire: bool, reload: bool)

  /** The ammo text: magazine, then reserve. */
  datatype AmmoText = AmmoText(magAmmo: int, ammoRemain: int)

  /** One Update: the shooter afterwards, the calls its gun sent, whether the
      reload animation was triggered and what the ammo display received. */
  datatype ShooterStep = ShooterStep(shooter: PlayerShooter, sent: seq<Rpc<Guns.GunCall>>, reloadAnim: bool, shown: Option<AmmoText>)

  /** The gun's active flag mirrors the shooter's enabled flag. */
  predicate Mirrored(sh: PlayerShooter)
  {
    sh.gunActive == sh.enabled
  }

  /** Setting `enabled`: a change runs OnEnable or OnDisable, which switch the
      gun's game object to match; activating an inactive gun runs the gun's
      own OnEnable, refilling it. Setting the current value changes nothing. */
  function SetEnabled(sh: PlayerShooter, enabled: bool, data: Guns.GunData): (r: PlayerShooter)
    ensures r.enabled == enabled
    ensures enabled != sh.enabled ==> r.gunActive == enabled
    ensures Mirrored(sh) ==> Mirrored(r)
    ensures enabled == sh.enabled ==> r == sh
    ensures enabled && !sh.enabled && !sh.gunActive ==> r.gun == Guns.OnEnable(data)
    ensures !(enabled && !sh.enabled && !sh.gunActive) ==> r.gun == sh.gun
  {
    if enabled == sh.enabled then sh
    else if enabled then
      PlayerShooter(true, true, if sh.gunActive then sh.gun else Guns.OnEnable(data))
    else
      PlayerShooter(false, false, sh.gun)
  }

  /** Update. Only an enabled shooter on the owner's avatar acts: fire when
      fire is pressed, otherwise try to reload when reload is pressed,
      triggering the animation only when the reload started; then show the
      gun's magazine and reserve. */
  function Update(sh: PlayerShooter, data: Guns.GunData, input: PlayerInput, isMine: bool, now: Tick): (r: ShooterStep)
    ensures !sh.enabled || !isMine ==> r == ShooterStep(sh, [], false, None)
    ensures sh.enabled && isMine ==>
      && r.shown == Some(AmmoText(r.shooter.gun.magAmmo, r.shooter.gun.ammoRemain))
      && r.shooter.enabled == sh.enabled && r.shooter.gunActive == sh.gunActive
    ensures sh.enabled && isMine && input.fire ==>
      && r.shooter.gun == Guns.Fire(sh.gun, data, now).gun
      && r.sent == Guns.Fire(sh.gun, data, now).sent
      && !r.reloadAnim
    ensures sh.enabled && isMine && !input.fire && input.reload ==>
      && r.shooter.gun == Guns.Reload(sh.gun, data, now).gun
      && r.reloadAnim == Guns.Reload(sh.gun, data, now).started
      && r.sent == []
    ensures !input.fire && !input.reload ==> r.shooter == sh && r.sent == [] && !r.reloadAnim
  {
    if !sh.enabled || !isMine then ShooterStep(sh, [], false, None)
    else
      var fired := if input.fire then Guns.Fire(sh.gun, data, now) else Guns.FireResult(sh.gun, []);
      var reloaded := if !input.fire && input.reload then Guns.Reload(sh.gun, data, now)
                      else Guns.ReloadResult(false, fired.gun);
      var gun := reloaded.gun;
      ShooterStep(sh.(gun := gun), fired.sent, reloaded.started, Some(AmmoText(gun.magAmmo, gun.ammoRemain)))
  }

  /** The owner's Update presses are owner steps of the gun, so they keep
      the gun's owner invariant whatever the input. */
  lemma UpdateKeepsInvariant(sh: PlayerShooter, data: Guns.GunData, input: PlayerInput, isMine: bool, now: Tick)
    requires data.magCapacity > 0
    requires Guns.OwnerInvariant(sh.gun, data)
    ensures Guns.OwnerInvariant(Update(sh, data, input, isMine, now).shooter.gun, data)
  {
    Guns.StepKeepsInvariant(sh.gun, data, Guns.Trigger(now));
    Guns.StepKeepsInvariant(sh.gun, data, Guns.ReloadKey(now));
  }

  /** The gun's coroutines only run while its game object is active. */
  function AdvanceGun(sh: PlayerShooter, data: Guns.GunData, now: Tick): (r: PlayerShooter)
    ensures !sh.gunActive ==> r == sh
    ensures sh.gunActive ==> r == sh.(gun := Guns.Advance(sh.gun, data, now))
    ensures r.enabled == sh.enabled && r.gunActive == sh.gunActive
  {
    if sh.gunActive then sh.(gun := Guns.Advance(sh.gun, data, now)) else sh
  }

  /** Switching a mirrored shooter off and on again always hands back a
      freshly enabled gun: the refill a respawn relies on. */
  lemma ReenableRefillsGun(sh: PlayerShooter, data: Guns.GunData)
    requires Mirrored(sh)
    ensures SetEnabled(SetEnabled(sh, false, data), true, data).gun == Guns.OnEnable(data)
  {
  }
}

=== FILE: spawning.dfy ===
/** ZombieSpawner: the master starts a new wave whenever no zombie is left,
    keeps the live zombies in a list, scores and schedules the destruction
    of each zombie that dies, and streams the remaining count and the wave
    to the other peers, which display those instead. */
module Spawning {
  import opened Common
  import opened PhotonStream
  import Game
  import Lifecycle

  /** The ZombieData fields that reach game state (speed and skin colour are
      presentation). */
  datatype ZombieData = ZombieData(health: real, damage: real)

  /** The Setup RPC each created zombie receives on every peer. */
  datatype SetupCall = Setup(zombie: ViewId, health: real, damage: real)

  /** One peer's spawner. `zombies` is the master's live list, `zombieCount`
      the count a replica last received, `nextViewId` the id Photon gives the
      next zombie it instantiates. */
  datatype ZombieSpawner = ZombieSpawner(zombies: seq<ViewId>, zombieCount: int, wave: int, nextViewId: ViewId)

  /** What the wave UI shows: the wave and the zombies remaining. */
  datatype WaveText = WaveText(wave: int, remaining: int)

  /** Zombies created so far and the Setup calls they sent. */
  datatype Created = Created(spawner: ZombieSpawner, calls: seq<Rpc<SetupCall>>)

  /** A SpawnWave: the spawner afterwards, the Setup calls, and whether
      CreateZombie threw because there was no zombie data or spawn point. */
  datatype Wave = Wave(spawner: ZombieSpawner, calls: seq<Rpc<SetupCall>>, failed: bool)

  /** One Update: the spawner afterwards, the calls sent, and what UpdateUI
      showed, None when it did not run. */
  datatype Frame = Frame(spawner: ZombieSpawner, calls: seq<Rpc<SetupCall>>, shown: Option<WaveText>)

  /** One zombie's death on the master: the listeners' effects. */
  datatype Death = Death(spawner: ZombieSpawner, game: Game.GameManager, timer: Lifecycle.Timer)

  const ZombieDestroyDelay: Tick := 10 * TicksPerSecond
  const ZombieScore: int := 100

  /** `Mathf.RoundToInt(wave * 1.5f)`: the integer nearest to 1.5 * wave,
      and on a tie the even one. Computed from the halves of the wave. */
  function SpawnCount(wave: int): (n: int)
    ensures -1 <= 2 * n - 3 * wave <= 1
    ensures (2 * n - 3 * wave == 1 || 2 * n - 3 * wave == -1) ==> n % 2 == 0
  {
    var m := wave / 2;
    var k := m / 2;
    assert wave == 2 * m + wave % 2 && m == 2 * k + m % 2;
    if wave % 2 == 0 then 3 * m
    else if m % 2 == 0 then
      // wave is 2m + 1, so 1.5 * wave is 3m + 1.5; with m even, 3m + 2 is the even neighbour.
      assert 3 * m + 2 == 2 * (3 * k + 1);
      3 * m + 2
    else
      // With m odd, 3m + 1 is the even neighbour.
      assert 3 * m + 1 == 2 * (3 * k + 2);
      3 * m + 1
  }

  /** Waves one to eight bring 2, 3, 4, 6, 8, 9, 10 and 12 zombies. */
  lemma SpawnCountFirstWaves()
    ensures SpawnCount(1) == 2 && SpawnCount(2) == 3 && SpawnCount(3) == 4 && SpawnCount(4) == 6
    ensures SpawnCount(5) == 8 && SpawnCount(6) == 9 && SpawnCount(7) == 10 && SpawnCount(8) == 12
  {
  }

  /** No view id occurs twice. */
  predicate Distinct(xs: seq<ViewId>)
  {
    forall i, j :: 0 <= i < j < |xs| ==> xs[i] != xs[j]
  }

  /** Every zombie in the list is distinct and was given an id below
      `nextViewId`, so the next instantiation is not in the list. */
  predicate Tracked(s: ZombieSpawner)
  {
    (forall id :: id in s.zombies ==> id < s.nextViewId) && Distinct(s.zombies)
  }

  /** The `n` consecutive view ids from `start`. */
  function FreshIds(start: ViewId, n: nat): (r: seq<ViewId>)
    ensures |r| == n && forall i :: 0 <= i < n ==> r[i] == start + i
    decreases n
  {
    if n == 0 then [] else [start] + FreshIds(start + 1, n - 1)
  }

  /** Appending an id the list lacks keeps it free of duplicates. */
  lemma AppendDistinct(xs: seq<ViewId>, id: ViewId)
    requires Distinct(xs) && id !in xs
    ensures Distinct(xs + [id])
  {
    var ys := xs + [id];
    forall i, j | 0 <= i < j < |ys| ensures ys[i] != ys[j] {
      assert ys[i] == xs[i];
      if j == |xs| {
        assert xs[i] in xs;
      }
    }
  }

  /** CreateZombie, once: instantiate a zombie with a fresh id, send it Setup
      with randomly chosen data on every peer, and add it to the list.
      `pick(id)` is the random draw made for that zombie. */
  function CreateZombie(s: ZombieSpawner, datas: seq<ZombieData>, pick: ViewId -> nat): (r: Created)
    requires |datas| > 0
    ensures r.spawner == s.(zombies := s.zombies + [s.nextViewId], nextViewId := s.nextViewId + 1)
    ensures |r.calls| == 1 && r.calls[0].target == All && r.calls[0].call.zombie == s.nextViewId
    ensures r.calls[0].call.health == datas[pick(s.nextViewId) % |datas|].health
    ensures r.calls[0].call.damage == datas[pick(s.nextViewId) % |datas|].damage
    ensures Tracked(s) ==> Tracked(r.spawner)
  {
    var id := s.nextViewId;
    var data := datas[pick(id) % |datas|];
    if Tracked(s) then
      AppendDistinct(s.zombies, id);
      Created(s.(zombies := s.zombies + [id], nextViewId := id + 1), [Rpc(All, Setup(id, data.health, data.damage))])
    else
      Created(s.(zombies := s.zombies + [id], nextViewId := id + 1), [Rpc(All, Setup(id, data.health, data.damage))])
  }

  /** CreateZombie, `n` times in a row: `n` fresh ids appended in order, one
      Setup to All for each. */
  function CreateZombies(s: ZombieSpawner, n: nat, datas: seq<ZombieData>, pick: ViewId -> nat): (r: Created)
    requires |datas| > 0
    ensures r.spawner == s.(zombies := s.zombies + FreshIds(s.nextViewId, n), nextViewId := s.nextViewId + n)
    ensures |r.calls| == n
    ensures forall i :: 0 <= i < n ==> r.calls[i].target == All && r.calls[i].call.zombie == s.nextViewId + i
    decreases n
  {
    if n == 0 then
      assert s.zombies + FreshIds(s.nextViewId, 0) == s.zombies;
      Created(s, [])
    else
      var one := CreateZombie(s, datas, pick);
      var rest := CreateZombies(one.spawner, n - 1, datas, pick);
      assert s.zombies + [s.nextViewId] + FreshIds(s.nextViewId + 1, n - 1) == s.zombies + FreshIds(s.nextViewId, n);
      Created(rest.spawner, one.calls + rest.calls)
  }

  /** A whole batch of creations keeps the list distinct and below the next id. */
  lemma {:induction false} CreateZombiesKeepTracked(s: ZombieSpawner, n: nat, datas: seq<ZombieData>, pick: ViewId -> nat)
    requires |datas| > 0 && Tracked(s)
    ensures Tracked(CreateZombies(s, n, datas, pick).spawner)
    decreases n
  {
    if n > 0 {
      CreateZombiesKeepTracked(CreateZombie(s, datas, pick).spawner, n - 1, datas, pick);
    }
  }

  /** SpawnWave: the wave goes up by one, then RoundToInt(wave * 1.5)
      zombies are created. With no zombie data or no spawn point the first
      CreateZombie throws: the wave has advanced but no zombie exists. */
  function SpawnWave(s: ZombieSpawner, datas: seq<ZombieData>, spawnPoints: nat, pick: ViewId -> nat): (r: Wave)
    ensures r.spawner.wave == s.wave + 1
    ensures r.failed <==> SpawnCount(s.wave + 1) > 0 && (|datas| == 0 || spawnPoints == 0)
    ensures r.failed ==> r.spawner.zombies == s.zombies && r.calls == []
    ensures !r.failed ==> r.spawner.zombies == s.zombies + FreshIds(s.nextViewId, Count(SpawnCount(s.wave + 1)))
    ensures !r.failed ==> |r.calls| == Count(SpawnCount(s.wave + 1))
    ensures Tracked(s) ==> Tracked(r.spawner)
  {
    var s1 := s.(wave := s.wave + 1);
    var n := Count(SpawnCount(s1.wave));
    if n > 0 && (|datas| == 0 || spawnPoints == 0) then Wave(s1, [], true)
    else if n == 0 then
      assert s.zombies + FreshIds(s.nextViewId, 0) == s.zombies;
      Wave(s1, [], false)
    else
      var c := CreateZombies(s1, n, datas, pick);
      if Tracked(s) then
        CreateZombiesKeepTracked(s1, n, datas, pick);
        Wave(c.spawner, c.calls, false)
      else
        Wave(c.spawner, c.calls, false)
  }

  /** How often `for (i = 0; i < n; i++)` runs. */
  function Count(n: int): nat
  {
    if n <= 0 then 0 else n
  }

  /** UpdateUI: the master counts its own list, a replica shows the count
      it received. */
  function Shown(s: ZombieSpawner, isMaster: bool): (t: WaveText)
    ensures t.wave == s.wave
    ensures isMaster ==> t.remaining == |s.zombies|
    ensures !isMaster ==> t.remaining == s.zombieCount
  {
    WaveText(s.wave, if isMaster then |s.zombies| else s.zombieCount)
  }

  /** Update. On the master: during game over return at once, before the UI;
      otherwise start a wave when no zombie is left. Every other peer only
      refreshes the UI. */
  function Update(s: ZombieSpawner, isMaster: bool, isGameover: bool, datas: seq<ZombieData>, spawnPoints: nat, pick: ViewId -> nat): (r: Frame)
    ensures r.spawner.wave != s.wave ==> isMaster && !isGameover && |s.zombies| == 0 && r.spawner.wave == s.wave + 1
    ensures isMaster && !isGameover && |s.zombies| == 0 ==> r.spawner.wave == s.wave + 1
    ensures isMaster && !isGameover && |s.zombies| == 0 ==>
      var w := SpawnWave(s, datas, spawnPoints, pick);
      r.spawner == w.spawner && r.calls == w.calls && (r.shown.None? <==> w.failed)
    ensures !isMaster ==> r == Frame(s, [], Some(WaveText(s.wave, s.zombieCount)))
    ensures isMaster && isGameover ==> r == Frame(s, [], None)
    ensures isMaster && !isGameover && |s.zombies| > 0 ==> r == Frame(s, [], Some(WaveText(s.wave, |s.zombies|)))
    ensures r.shown.Some? ==> r.shown.value == Shown(r.spawner, isMaster)
    ensures Tracked(s) ==> Tracked(r.spawner)
  {
    if isMaster && isGameover then Frame(s, [], None)
    else if isMaster && |s.zombies| <= 0 then
      var w := SpawnWave(s, datas, spawnPoints, pick);
      Frame(w.spawner, w.calls, if w.failed then None else Some(Shown(w.spawner, true)))
    else Frame(s, [], Some(Shown(s, isMaster)))
  }

  /** `List.Remove`: drop the first occurrence, if any. */
  function Remove(xs: seq<ViewId>, x: ViewId): (r: seq<ViewId>)
    ensures x in xs ==> multiset(r) == multiset(xs) - multiset{x} && |r| == |xs| - 1
    ensures x !in xs ==> r == xs
    ensures forall y :: y in r ==> y in xs
    decreases |xs|
  {
    if |xs| == 0 then xs
    else if xs[0] == x then
      assert xs == [xs[0]] + xs[1..];
      xs[1..]
    else
      assert xs == [xs[0]] + xs[1..];
      [xs[0]] + Remove(xs[1..], x)
  }

  /** The listeners CreateZombie attaches to a zombie's onDeath, which exist
      on the master only: remove it from the list, destroy it everywhere ten
      seconds later, and score 100. */
  function OnZombieDeath(s: ZombieSpawner, game: Game.GameManager, zombie: ViewId, now: Tick): (r: Death)
    ensures r.spawner.zombies == Remove(s.zombies, zombie)
    ensures zombie in s.zombies ==> |r.spawner.zombies| == |s.zombies| - 1
    ensures Tracked(s) ==> Tracked(r.spawner) && zombie !in r.spawner.zombies
    ensures multiset(r.spawner.zombies) <= multiset(s.zombies)
    ensures r.spawner == s.(zombies := r.spawner.zombies)
    ensures r.timer == Lifecycle.DestroyAfter(zombie, now + ZombieDestroyDelay)
    ensures r.game == Game.AddScore(game, ZombieScore)
  {
    var rest := Remove(s.zombies, zombie);
    var r := s.(zombies := rest);
    if Tracked(s) then
      RemoveKeepsTracked(s, zombie);
      Death(r, Game.AddScore(game, ZombieScore), Lifecycle.Schedule(zombie, now, ZombieDestroyDelay))
    else
      Death(r, Game.AddScore(game, ZombieScore), Lifecycle.Schedule(zombie, now, ZombieDestroyDelay))
  }

  /** Removing from a list without duplicates leaves none, and removes
      every occurrence of the id. */
  lemma {:induction false} RemoveDistinct(xs: seq<ViewId>, x: ViewId)
    requires Distinct(xs)
    ensures Distinct(Remove(xs, x)) && x !in Remove(xs, x)
    decreases |xs|
  {
    if |xs| == 0 {
    } else if xs[0] == x {
      assert xs[0] !in xs[1..] by {
        forall k | 0 <= k < |xs| - 1 ensures xs[1..][k] != xs[0] {
          assert xs[1..][k] == xs[k + 1];
        }
      }
    } else {
      var tail := xs[1..];
      assert Distinct(tail) by {
        forall i, j | 0 <= i < j < |tail| ensures tail[i] != tail[j] {
          assert tail[i] == xs[i + 1] && tail[j] == xs[j + 1];
        }
      }
      RemoveDistinct(tail, x);
      var t := Remove(tail, x);
      assert xs[0] !in tail by {
        forall k | 0 <= k < |tail| ensures tail[k] != xs[0] {
          assert tail[k] == xs[k + 1];
        }
      }
      var r := [xs[0]] + t;
      forall i, j | 0 <= i < j < |r| ensures r[i] != r[j] {
        assert r[j] == t[j - 1] && t[j - 1] in t;
        if i > 0 {
          assert r[i] == t[i - 1];
        }
      }
    }
  }

  lemma RemoveKeepsTracked(s: ZombieSpawner, zombie: ViewId)
    requires Tracked(s)
    ensures Tracked(s.(zombies := Remove(s.zombies, zombie))) && zombie !in Remove(s.zombies, zombie)
  {
    RemoveDistinct(s.zombies, zombie);
  }

  /** The owner's side of OnPhotonSerializeView: the list's length, then the wave. */
  function Serialize(s: ZombieSpawner): (r: seq<Value>)
    ensures |r| == 2 && Unboxes(r[0]) && Unboxes(r[1])
    ensures AsInt(r[0]) == |s.zombies| && AsInt(r[1]) == s.wave
  {
    [IntValue(|s.zombies|), IntValue(s.wave)]
  }

  /** A replica's side: read the count into `zombieCount`, then the wave,
      assigning each as it is read. When the second read throws, the count
      already read stays. */
  function Deserialize(replica: ZombieSpawner, st: seq<Value>): (r: Deserialized<ZombieSpawner>)
    ensures !r.thrown <==> |st| >= 2 && Unboxes(st[0]) && Unboxes(st[1])
    ensures !r.thrown ==> r.got.wave == AsInt(st[1]) && r.rest == st[2..]
    ensures r.thrown ==> r.got.wave == replica.wave
    ensures r.got.zombieCount == (if |st| > 0 && Unboxes(st[0]) then AsInt(st[0]) else replica.zombieCount)
    ensures r.got.zombies == replica.zombies && r.got.nextViewId == replica.nextViewId
  {
    match ReceiveInt(st)
    case None => Deserialized(replica, st, true)
    case Some(Received(count, st1)) =>
      var s1 := replica.(zombieCount := count);
      match ReceiveInt(st1)
      case None => Deserialized(s1, st1, true)
      case Some(Received(wave, st2)) => Deserialized(s1.(wave := wave), st2, false)
  }

  /** A replica reads the master's list length and wave, in order. */
  lemma SnapshotRoundTrip(master: ZombieSpawner, replica: ZombieSpawner, rest: seq<Value>)
    ensures Deserialize(replica, Serialize(master) + rest)
         == Deserialized(replica.(zombieCount := |master.zombies|, wave := master.wave), rest, false)
  {
    assert (Serialize(master) + rest)[2..] == rest;
  }

  /** After the snapshot, the replica's wave UI shows what the master's shows. */
  lemma ReplicaShowsMasterCount(master: ZombieSpawner, replica: ZombieSpawner)
    ensures var got := Deserialize(replica, Serialize(master));
            !got.thrown && Shown(got.got, false) == Shown(master, true)
  {
    SnapshotRoundTrip(master, replica, []);
    assert Serialize(master) + [] == Serialize(master);
  }
}

=== FILE: zombies.dfy ===
/** Zombie: a LivingEntity with stats set by an RPC, a chase target picked
    on the master, an attack gated by authority, life and cooldown, and a
    death that also switches its colliders and navigation off. */
module Zombies {
  import opened Common
  import Living

  /** One peer's copy of a zombie. `target` names the LivingEntity it
      chases; `colliders` and `nav` are whether those components are on. */
  datatype Zombie = Zombie(
    life: Living.LivingEntity,
    damage: real,
    timeBetAttack: Tick,
    lastAttackTime: Tick,
    target: Option<ViewId>,
    colliders: bool,
    nav: bool)

  /** The LivingEntities that still exist in the scene, by view id; an id
      missing here is a destroyed object, which Unity compares equal to null. */
  type Scene = map<ViewId, Living.LivingEntity>

  /** One OnDamage on a zombie, with whether the hit effect played. */
  datatype ZombieOutcome = ZombieOutcome(zombie: Zombie, sent: seq<Rpc<Living.HealthCall>>, hitEffect: bool, deathSeen: Option<Living.LivingEntity>)

  /** What one pass of UpdatePath does to the navigation agent: nothing (the
      coroutine does not run), resume and head for a target, or stop. */
  datatype AgentCommand = Untouched | Chase(target: ViewId) | Stop

  /** One tick of the UpdatePath coroutine: the zombie afterwards and what
      its agent was told. */
  datatype PathStep = PathStep(zombie: Zombie, agent: AgentCommand)

  /** One OnTriggerStay: the zombie afterwards and the entity it hit, if any. */
  datatype Attack = Attack(zombie: Zombie, hit: Option<ViewId>)

  /** Setup, run on every peer through an RPC to All: starting and current
      health, and attack damage. */
  function Setup(z: Zombie, newHealth: real, newDamage: real): (r: Zombie)
    ensures r.life.startingHealth == newHealth && r.life.health == newHealth
    ensures r.damage == newDamage && r.life.dead == z.life.dead
    ensures r.target == z.target && r.lastAttackTime == z.lastAttackTime && r.timeBetAttack == z.timeBetAttack
    ensures r.colliders == z.colliders && r.nav == z.nav
  {
    z.(life := z.life.(startingHealth := newHealth, health := newHealth), damage := newDamage)
  }

  /** After Setup, the new health is exactly the damage that kills the
      zombie in one hit on the master. */
  lemma SetupSetsLethalDamage(z: Zombie, newHealth: real, newDamage: real, damage: real)
    requires !z.life.dead
    ensures OnDamage(Setup(z, newHealth, newDamage), damage, true).deathSeen.Some? <==> damage >= newHealth
  {
  }

  /** Whether a touched object carries a LivingEntity that is alive. */
  predicate Qualifies(c: Option<ViewId>, scene: Scene)
  {
    c.Some? && c.value in scene && !scene[c.value].dead
  }

  /** hasTarget: a target that still exists and is not dead. */
  predicate HasTarget(z: Zombie, scene: Scene)
  {
    Qualifies(z.target, scene)
  }

  /** The position of the first collider, in order, whose LivingEntity
      exists and is alive; None when there is none. */
  function FirstAlive(colliders: seq<Option<ViewId>>, scene: Scene): (r: Option<nat>)
    ensures r.Some? ==> r.value < |colliders| && Qualifies(colliders[r.value], scene)
    ensures r.Some? ==> forall j :: 0 <= j < r.value ==> !Qualifies(colliders[j], scene)
    ensures r.None? ==> forall j :: 0 <= j < |colliders| ==> !Qualifies(colliders[j], scene)
    decreases |colliders|
  {
    if |colliders| == 0 then None
    else if Qualifies(colliders[0], scene) then Some(0)
    else
      match FirstAlive(colliders[1..], scene)
      case None => None
      case Some(k) => Some(k + 1)
  }

  /** One pass of UpdatePath. It only runs on the master (Start does not
      start it elsewhere) and only while the zombie lives. With a target the
      agent heads for it; without one the agent stops and the first living
      entity among the overlapping colliders becomes the target, if any. */
  function UpdatePath(z: Zombie, colliders: seq<Option<ViewId>>, scene: Scene, isMaster: bool): (r: PathStep)
    ensures !isMaster || z.life.dead ==> r == PathStep(z, Untouched)
    ensures isMaster && !z.life.dead && HasTarget(z, scene) ==> r == PathStep(z, Chase(z.target.value))
    ensures isMaster && !z.life.dead && !HasTarget(z, scene) ==>
      && r.agent == Stop
      && r.zombie.target == (match FirstAlive(colliders, scene) case None => z.target case Some(k) => colliders[k])
      && r.zombie == z.(target := r.zombie.target)
    ensures r.zombie.life == z.life
  {
    if !isMaster || z.life.dead then PathStep(z, Untouched)
    else if HasTarget(z, scene) then PathStep(z, Chase(z.target.value))
    else
      match FirstAlive(colliders, scene)
      case None => PathStep(z, Stop)
      case Some(k) => PathStep(z.(target := colliders[k]), Stop)
  }

  /** A zombie without a target that overlaps a living entity acquires one,
      and from the next pass on it chases that target, whatever it overlaps
      then, for as long as the scene keeps it alive. */
  lemma RetargetThenChase(z: Zombie, colliders: seq<Option<ViewId>>, scene: Scene, later: seq<Option<ViewId>>)
    requires !z.life.dead && !HasTarget(z, scene)
    requires exists j :: 0 <= j < |colliders| && Qualifies(colliders[j], scene)
    ensures var r := UpdatePath(z, colliders, scene, true);
            && HasTarget(r.zombie, scene)
            && UpdatePath(r.zombie, later, scene, true) == PathStep(r.zombie, Chase(r.zombie.target.value))
  {
  }

  /** Update: only the master writes the animator's HasTarget parameter. */
  function AnimatorHasTarget(z: Zombie, scene: Scene, isMaster: bool): (r: Option<bool>)
    ensures r.Some? <==> isMaster
    ensures r.Some? ==> (r.value <==> z.target.Some? && z.target.value in scene && !scene[z.target.value].dead)
  {
    if isMaster then Some(HasTarget(z, scene)) else None
  }

  /** The zombie's Die extras, after the base Die: colliders and navigation off. */
  function DieExtras(z: Zombie): (r: Zombie)
    ensures !r.colliders && !r.nav && r.life == z.life && r.target == z.target
  {
    z.(colliders := false, nav := false)
  }

  /** OnDamage: the hit effect plays only for a living zombie; the base
      OnDamage then always runs, and its Die is the zombie's. */
  function OnDamage(z: Zombie, damage: real, isMaster: bool): (r: ZombieOutcome)
    ensures r.hitEffect == !z.life.dead
    ensures r.zombie.life == Living.OnDamage(z.life, damage, isMaster).entity
    ensures r.sent == Living.OnDamage(z.life, damage, isMaster).sent
    ensures r.deathSeen == Living.OnDamage(z.life, damage, isMaster).deathSeen
    ensures r.deathSeen.Some? ==> !r.zombie.colliders && !r.zombie.nav
    ensures r.deathSeen.None? ==> r.zombie.colliders == z.colliders && r.zombie.nav == z.nav
  {
    var out := Living.OnDamage(z.life, damage, isMaster);
    var z1 := z.(life := out.entity);
    ZombieOutcome(if out.Died() then DieExtras(z1) else z1, out.sent, !z.life.dead, out.deathSeen)
  }

  /** The attack gate of OnTriggerStay. */
  predicate MayAttack(z: Zombie, touched: Option<ViewId>, isMaster: bool, now: Tick)
  {
    && isMaster
    && !z.life.dead
    && now >= z.lastAttackTime + z.timeBetAttack
    && touched.Some?
    && touched == z.target
  }

  /** OnTriggerStay: on the master, a living zombie whose cooldown elapsed
      and that touches exactly its target attacks it and restarts the
      cooldown. The hit entity then takes `damage` through its own OnDamage. */
  function OnTriggerStay(z: Zombie, touched: Option<ViewId>, isMaster: bool, now: Tick): (r: Attack)
    ensures r.hit.Some? <==> MayAttack(z, touched, isMaster, now)
    ensures r.hit.Some? ==> r.hit == z.target && r.zombie == z.(lastAttackTime := now)
    ensures r.hit.None? ==> r.zombie == z
  {
    if MayAttack(z, touched, isMaster, now) then Attack(z.(lastAttackTime := now), touched)
    else Attack(z, None)
  }

  /** Two attacks on the master are at least `timeBetAttack` ticks apart. */
  lemma AttacksRespectCooldown(z: Zombie, t1: Option<ViewId>, t2: Option<ViewId>, now1: Tick, now2: Tick)
    requires OnTriggerStay(z, t1, true, now1).hit.Some?
    requires OnTriggerStay(OnTriggerStay(z, t1, true, now1).zombie, t2, true, now2).hit.Some?
    ensures now2 >= now1 + z.timeBetAttack
  {
  }

  /** Looking for a target. The loop form of the search in UpdatePath: the
      first qualifying collider wins, as `break` leaves the loop at once. */
  method FindTarget(colliders: seq<Option<ViewId>>, scene: Scene, current: Option<ViewId>) returns (target: Option<ViewId>)
    ensures target == (match FirstAlive(colliders, scene) case None => current case Some(k) => colliders[k])
  {
    target := current;
    var i := 0;
    while i < |colliders|
      invariant 0 <= i <= |colliders|
      invariant forall j :: 0 <= j < i ==> !Qualifies(colliders[j], scene)
      invariant target == current
    {
      if Qualifies(colliders[i], scene) {
        target := colliders[i];
        return;
      }
      i := i + 1;
    }
  }
}
